=== FILE: README.md ===
# midea2influx, modelled in Dafny

midea2influx is a one-shot Go program. It runs `midea-beautiful-air-cli
discover` and reads the plain-text report the tool prints about Midea
dehumidifiers on the local network. It turns every device block of that
report into an InfluxDB point (measurement, tags, fields). It drops devices
that are offline or report exactly 0 °C. Then it delivers the rest:

- it writes them to InfluxDB with bounded retry;
- it publishes every field as one MQTT message `<base>/<device id>/<field key>`, with bounded retry;
- it finally sends a heartbeat GET request.

This project models that core as pure Dafny functions and proves what
each stage promises. The modules are:

| module | file | models |
|---|---|---|
| `Wrappers` | wrappers.dfy | `Option` and `Result` |
| `Text` | text.dfy | `strings.TrimSpace` (Go's `unicode.IsSpace` set), `HasPrefix`, `Split`, `SplitN(…, 2)`, ASCII `ToLower`, and a helper `EqualFold` for ASCII case-insensitive equality (not Go's `strings.EqualFold`, which the program does not call) |
| `Conv` | conv.dfy | `ConvBool` from conv.go. `ConvFloat` (`strconv.ParseFloat`) and `strconv.FormatFloat` are parameters, of types `NumParser` and `NumFormatter` |
| `Configuration` | config.dfy | the decoded `Config`, `ConfigFromFile`'s validation, which sinks are configured, the InfluxDB credential |
| `Parser` | parser.dfy | the parse loop of main.go (see below) |
| `Points` | points.dfy | what `write.Point.AddTag` / `AddField` mean by key |
| `ParserFacts` | parser_facts.dfy | what the parse loop yields, stated over the raw lines |
| `Filter` | filter.dfy | the `lo.Filter` callback, and the "no devices" exit (code 11) |
| `Mqtt` | mqtt.dfy | `publishToMQTT`: device id, topics, payloads, first failing publish |
| `Pipeline` | pipeline.dfy | the run after configuration: parse, filter, Influx write, MQTT publish, heartbeat, exit status |
| `Scenarios` | scenarios.dfy | a two-device discovery report, worked end to end |

The parse loop is modelled in two layers:

- `Classify` gives the stateless *action* of one raw line:
  - open a record;
  - panic on a marker without `/`;
  - ignore the line;
  - add a tag;
  - add one or two fields;
  - log a device warning.
- `Apply` performs one action on the loop state. `Run` folds `Apply` over the actions and stops at the first panic.

A Go runtime panic (index out of range) is the explicit outcome `Failure(Panic)`. Exit codes are modelled as values:

| outcome | exit code |
|---|---|
| success | 0 |
| `log.Fatalf` | 1 |
| a panic | 2 |
| no devices | 11 |

The sinks' answers are inputs of the model, and so are the discovery output and the float conversions. The run's observable behaviour is a list of events (`InfluxWrite`, `MqttPublish`, `HeartbeatGet`) plus a final status.

Points and the InfluxDB client library are not part of this model. `AddTag` and `AddField` are modelled as the client's `write.Point` methods behave: a key that is already present gets its value replaced in place, and a new key is appended. So a parsed record never holds a key twice, and a key reads the value of the latest line for it (`ParserFacts.ParsedRecordsReadLatest`).

Notes on behaviour of the code that is easy to miss (the model follows the code):

- One might expect the two sinks to be independent. In the code, a failed InfluxDB write ends the program with `log.Fatalf`, so MQTT is never tried and no heartbeat is sent. An MQTT failure likewise skips the heartbeat (`Pipeline.Deliver`, `Pipeline.HeartbeatOnlyOnCompletion`).
- A marker line `id <n>/<device>` sets the current device id used in warnings, but it adds no `id` tag. The MQTT device segment comes only from an `id` line that does not start with "id ", for example an indented `id = …`, or `id=…` with no space after `id`. The example report has no such line, so its topics have an empty device segment: `home/midea//humidity_pct` (`Scenarios.SampleTopics`).
- The marker test runs on the raw, untrimmed line. An unindented `id = x` line is therefore a marker: without a `/` it panics. The same line indented, or written `id=x` with no space after `id`, becomes an `id` tag (`ParserFacts.UnindentedIdIsMarker`, `ParserFacts.IndentedIdTags`, `ParserFacts.UnspacedIdTags`).
- config.go's `Config` struct declares no MQTT fields, but main.go reads `MQTTHost`, `MQTTPort`, `MQTTTopic`, `MQTTUsername` and `MQTTPassword`. The model's `Config` carries them, and `ConfigFromFile` leaves them unchecked.

## Model

| member | source | states |
|---|---|---|
| Text.TrimIdempotent | main.go:149 | trimming white space twice is trimming once |
| Text.Split | main.go:143 | the pieces hold no separator, there are at least two exactly when the separator occurs, and joining them gives back the input |
| Text.SplitJoin | main.go:143 | splitting on a separator undoes joining parts that do not contain it |
| Text.SplitSecond | main.go:145 | the second piece of a split is exactly the text between the first and the second separator, or up to the end when there is no second one |
| Text.CutJoin | main.go:153-159 | `SplitN(l, "=", 2)` on `a=b` with no `=` in `a` gives back exactly `a` and `b` |
| Conv.ConvBool | conv.go:9-18 | success with `true` exactly when the input equals "true" ignoring case, and success with `false` exactly for "false"; any other input is an error quoting the input, with value `false` |
| Conv.FormatBoolRoundTrip | conv.go:9-18 | converting `strconv.FormatBool(b)` back yields `b` with no error |
| Conv.ConvBoolIgnoresCase | conv.go:10 | inputs equal up to ASCII case convert to the same value, and both fail or neither does |
| Conv.PaddedTokenRejected | conv.go:9-18 | a token with leading or trailing white space is rejected, so callers must trim |
| Configuration.Validate | config.go:36-55 | the first failing check decides the error (server, bucket, heartbeat URL, discover arguments), and every error returns the zero Config; on success only an empty measurement name is replaced by "midea_dehumidifier" |
| Configuration.ValidateIdempotent | config.go:36-55 | validating a loaded configuration again succeeds and changes nothing |
| Configuration.LoadedConfigIsInfluxConfigured | config.go:36-44 | a configuration that loads has server and bucket set, so the InfluxDB sink is always configured, and its measurement name is non-empty |
| Configuration.AuthString | main.go:84-89 | `user:password` when either half is set, otherwise the token |
| Configuration.NoCredentialIff | main.go:84-89 | the client gets no credential exactly when user, password and token are all empty |
| Configuration.TokenIgnoredWithPassword | main.go:85-88 | once a user or password is set, changing the token does not change the credential |
| Parser.KeyAction | main.go:158-239 | the key table: tag keys add the renamed tag; a value key adds its fields exactly when its value converts, one field under the key's field name holding the converted value (two for `temp`: `temp_c` and `temp_f = c*9/5+32`), all well typed; a failed conversion adds nothing; `error` warns with its value when that is not "0" and is ignored otherwise; unknown keys are ignored |
| Parser.Classify | main.go:144-159 | a raw line starting with "id " opens a record, or panics exactly when its trimmed text has no `/`; a blank line or one without `=` is ignored; no other line opens a record |
| Parser.Apply | main.go:144-239 | a marker appends an empty record named after the measurement and sets the current id; a tag or field line without a current record panics; a tag or field line edits only the last record and leaves the earlier ones, the warnings and the current id unchanged; a warning records the current id |
| Points.SetTagLookup | main.go:161-170 | after `AddTag`, the key reads the new value and every other key reads what it read before |
| Points.SetFieldsLookup | main.go:199-206 | after adding fields, a key reads the value of the last new field with that key, or its old value when none has it |
| Points.SetTagDistinct | main.go:161-170 | `AddTag` keeps tag keys distinct, and grows the list by one exactly when the key is new |
| Points.SetFieldsDistinct | main.go:171-234 | adding fields keeps field keys distinct |
| Points.SetFieldsAppend | main.go:204-205 | fields under keys that are new, and distinct among themselves, are appended in order |
| ParserFacts.OpensComplete | main.go:144-147 | every opening action appears among the record openings |
| ParserFacts.RunFollowsBlocks | main.go:141-240 | a run that does not panic yields one record per opening action; record k is built from exactly the actions between the k-th opening and the next |
| ParserFacts.RunWarnings | main.go:235-238 | the final current id is that of the latest opening, and the warnings are those of the `error` lines, each with the device current at that line, in order |
| ParserFacts.RunPanicsAtFirstOffence | main.go:143-240 | the loop panics exactly when some action offends (a bad marker, or a tag or field before any marker), and the panic names the first such line |
| ParserFacts.RecordPerMarker | main.go:143-147 | the parser yields exactly one record per raw line starting with "id ", in input order, each named after the configured measurement and holding what its block of lines contributes |
| ParserFacts.ParsedRecordsWellTyped | main.go:171-234 | every field of every parsed record has the type its name implies, so the filter's type assertions cannot panic |
| ParserFacts.ParsedRecordsReadLatest | main.go:160-234 | each parsed record holds every tag and field key at most once, and a key reads the value of the latest line for it in the record's block |
| ParserFacts.TagsOfReadLatest | main.go:161-170 | a block's tags are distinct by key and read the latest tag line per key |
| ParserFacts.FieldsOfReadLatest | main.go:171-234 | a block's fields are distinct by key and read the latest field line per key |
| ParserFacts.CurrentIdIsLatestMarker | main.go:141-238 | after a run without a panic, the current device id is the second `/` segment of the latest marker line (or ""), and the warnings are exactly those of the `error` lines whose trimmed value is not "0", in line order, each naming the device of the latest marker line before it |
| ParserFacts.WarningsOfLinesAgree | main.go:235-238 | the warnings the loop derives from the actions equal the warnings read off the raw lines |
| ParserFacts.ReportedErrorAgrees | main.go:144-238 | a line warns exactly when it is a non-marker `error = v` line with v not "0", and the warning carries v |
| ParserFacts.ParsePanics | main.go:143-239 | parsing the lines panics exactly when a raw line is a marker without `/`, or a tag or field line comes before any marker; the panic names the first such line |
| ParserFacts.UnformattedLineIgnored | main.go:149-157 | a blank line, or one without `=`, is skipped |
| ParserFacts.KeyValueSplit | main.go:153-159 | a line `key=value` is handled by the key table on the trimmed key and the trimmed value |
| ParserFacts.SpacedKeyValue | main.go:149-159 | `key = value` with unpadded key and value goes to the key table with exactly that key and value |
| ParserFacts.MarkerIdSecondSegment | main.go:144-145 | a marker line whose trimmed text is `head/id` or `head/id/…`, with no `/` in `head` or `id`, names the device `id` |
| ParserFacts.UnindentedIdIsMarker | main.go:144-145 | an unindented `id = x` line is taken for a marker, and panics when `x` has no `/` |
| ParserFacts.IndentedIdTags | main.go:149-162 | an indented `id = x` line adds the tag `id = x` |
| ParserFacts.UnspacedIdTags | main.go:144-162 | an unindented `id=x` line is not a marker and adds the tag `id = x` |
| ParserFacts.UnknownKeyIgnored | main.go:160-239 | a key other than the fifteen the `switch` lists is ignored, whatever its value |
| ParserFacts.ErrorKeyWarns | main.go:235-238 | an `error` line warns with its value exactly when the value is not "0" |
| ParserFacts.TagKeyAddsTag | main.go:161-170 | the five tag keys add a tag of the same name, except `s/n`, which becomes `sn` |
| ParserFacts.TempAddsBothOrNeither | main.go:199-206 | a `temp` line adds both `temp_c` and the Fahrenheit `temp_f`, or nothing when the number does not parse |
| ParserFacts.BoolKeyConverts | main.go:171-233 | `online`, `running` and `sleep` add a boolean field of the same name, `tank` adds `tank_full` and `filter` adds `filter_needs_cleaning`, for "true"/"false" in any ASCII case; any other value is ignored |
| ParserFacts.NumKeyConverts | main.go:185-213 | `humid%` adds `humidity_pct`, `target%` adds `target_humidity_pct` and `fan` adds `fan`, holding the parsed number; a value that does not parse is ignored |
| Filter.KeepFields | main.go:243-251 | a point is kept exactly when none of its fields is `online = false` or `temp_c = 0` |
| Filter.FilterRecords | main.go:242-252 | the result holds exactly the surviving records of the input |
| Filter.FilterAppend | main.go:242-252 | filtering distributes over concatenation, so relative order is kept |
| Filter.FilterSingle | main.go:242-252 | one record is kept exactly when it survives |
| Filter.FilterIdempotent | main.go:242-252 | filtering twice is filtering once |
| Filter.Decide | main.go:253-256 | the run stops with exit code 11 exactly when no record survives; otherwise it reports the non-empty filtered list |
| Mqtt.DeviceId | main.go:293-299 | the value of the first `id` tag, or "" when there is none |
| Mqtt.FindDeviceId | main.go:293-299 | the loop with `break` computes the first `id` tag's value |
| Mqtt.RecordMessages | main.go:301-314 | one message per field, in field order, on topic `<base>/<device id>/<key>`, with the field's payload |
| Mqtt.Messages | main.go:292-322 | a complete attempt sends as many messages as there are fields over all points |
| Mqtt.MessageAt | main.go:292-322 | field j of point i is the message numbered by the fields before point i plus j |
| Mqtt.MessagesPrefix | main.go:292-322 | the messages of the first points are a prefix of all messages |
| Mqtt.BoolPayloadRoundTrip | main.go:306-307 | a boolean payload converts back to the same boolean |
| Mqtt.PublishAll | main.go:316-319 | an attempt succeeds exactly when every publish is acknowledged, and then sends all messages; otherwise it stops at the first failed publish, having sent up to it, with an error naming that topic |
| Mqtt.PublishAllFailsAt | main.go:316-319 | if publish k is the first to fail, the attempt sent exactly messages 0..k and reports k's topic and cause |
| Mqtt.PublishFields | main.go:301-321 | the loop over one point's fields extends the sent messages by exactly that point's messages, or stops at the first refused publish with the error the whole attempt returns |
| Mqtt.PublishToMqtt | main.go:291-324 | the nested loops over points and fields send exactly what `PublishAll` of all messages sends, and return the same error |
| Pipeline.Retry | main.go:259-263 | with n attempts, success exactly when one of the first n calls succeeds; the number of calls is the first success's index plus one; when all fail, every call's error is returned |
| Pipeline.Deliver | main.go:258-288 | the Influx stage fails exactly when configured and three writes fail, and then the events are those three writes and the exit code is 1; MQTT fails exactly when Influx did not fail, MQTT is configured and three attempts fail |
| Pipeline.DeliverEvents | main.go:258-288 | the events are the writes, then the publishes unless the writes failed, then the heartbeat on completion |
| Pipeline.StagePublishesAll | main.go:270-278 | an MQTT stage that succeeds has published every message |
| Pipeline.UnconfiguredSinkSilent | main.go:258-278 | a sink that is not configured is never called |
| Pipeline.HeartbeatOnlyOnCompletion | main.go:280-288 | the heartbeat is sent if and only if the run completed and a heartbeat URL is set |
| Pipeline.CompletedRunDelivered | main.go:258-278 | a completed run wrote the points to a configured InfluxDB and published every message to a configured broker |
| Pipeline.LastAttemptPublished | main.go:270-278 | every message of a successful MQTT attempt appears among the publish events |
| Pipeline.AllAccepted | main.go:258-288 | when every call succeeds, each configured sink is called once, then the heartbeat follows, and the run completes |
| Pipeline.Run | main.go:141-256 | the run crashes exactly when parsing panics; it stops with "no devices" exactly when parsing succeeds and nothing survives; in both cases no sink is called |
| Pipeline.RunDeliversSurvivors | main.go:242-288 | when something survives, the run delivers exactly the surviving points, in report order |
| Scenarios.SampleParses | main.go:141-240 | the example report parses into the two expected records with no warning |
| Scenarios.SampleFilters | main.go:242-252 | the offline 0 °C device is dropped, and only the first device is reported |
| Scenarios.SampleTopics | main.go:301-302 | the reported device yields four messages; the humidity topic has an empty device segment |
| Scenarios.SampleEndToEnd | main.go:141-256 | the whole run on the example report delivers exactly the first device's point |
| Scenarios.SampleDelivered | main.go:258-288 | with both sinks configured and every call accepted, the example completes with exit code 0 after one write, four publishes and the heartbeat |
| Scenarios.SinglePublish | main.go:301-316 | a point with id tag `abc123` and one humidity field publishes on `home/midea/abc123/humidity_pct` with the formatted number |

## Left out

- Command-line flags, `-version`, `DefaultCfgPath`, opening the file and decoding its JSON (main.go:45-67, config.go:23-34, 58-66): file-system I/O. The model starts from the decoded `Config`.
- `url.Parse` of the heartbeat URL: the parameter `UrlCheck` says which URLs fail and with what message.
- Looking up and running the discovery tool, and its failure path (main.go:69-74, 128-139): process I/O. The tool's standard output is the input string `out`.
- Creating the InfluxDB client and its health check, and connecting to the MQTT broker with its options (main.go:90-126): network I/O, not modelled. A failure there ends the program before parsing, and that path is not modelled.
- Timeouts, the one-second retry delays, and the client ID's timestamp: clocks are not modelled. Only the attempt counts (3 and 3) are.
- Heartbeat errors: the GET request is an event, and its failure is only logged, so it changes nothing the model observes.
- Floating point: `strconv.ParseFloat`, `strconv.FormatFloat` and `libwx`'s Celsius-to-Fahrenheit conversion. The first two are parameters. The conversion is exact over the reals (`c*9/5+32`), so float rounding is not modelled.
- NaN and infinities: `NumParser` yields a real or nothing, so it cannot return the NaN or ±Inf that `strconv.ParseFloat` accepts without error for "NaN", "Inf" or "infinity". In Go, `temp = NaN` stores NaN in `temp_c` and `temp_f`, the device passes the filter (NaN is not equal to 0), and "NaN" is published. The model does not cover such values.
- Negative zero: `strconv.ParseFloat("-0", 64)` gives -0.0, and a `NumParser` into the reals cannot tell it from 0. The filter is unaffected, because -0.0 == 0 holds in Go too, so `temp = -0` drops the device as `temp = 0` does. For the other numeric keys, Go publishes the payload "-0" where "0" would be published for "0". The model's `NumFormatter` sees one value for both, so it does not capture that difference.
- `strings.ToLower` is ASCII-only in the model. No non-ASCII character lowercases to a letter of "true" or "false", so `ConvBool`'s verdicts are unaffected.
- Debug and warning log output (`DebugLogger`, `log.Printf`): only the `[WARN]` device warnings are kept, as a list, because they carry the current device id.
- `publishToMQTT`'s `int64` and default payload cases: the parser never produces such fields.
- output.go is not part of this model.
- Scenarios.SampleTopics: states the message count and the one topic that shows the empty device segment, not every topic.

=== FILE: config.dfy ===
/**
 * The run configuration (config.go) and the pure decisions main.go takes
 * from it: which sinks are configured and which credential the time-series
 * client is given. Reading and JSON-decoding the file is not modelled; the
 * model starts from the decoded record.
 */
module Configuration {
  import opened Wrappers

  /** The decoded configuration file. The MQTT fields are read by main.go
      but are not validated. */
  datatype Config = Config(
    measurementName: string,
    influxServer: string,
    influxBucket: string,
    influxUser: string,
    influxPass: string,
    influxToken: string,
    influxOrg: string,
    influxHealthCheckDisabled: bool,
    heartbeatUrl: string,
    mideaArgs: seq<string>,
    mqttHost: string,
    mqttPort: int,
    mqttTopic: string,
    mqttUsername: string,
    mqttPassword: string)

  /** Go's zero value `Config{}`. */
  const ZeroConfig := Config("", "", "", "", "", "", "", false, "", [], "", 0, "", "", "")

  const DefaultMeasurementName := "midea_dehumidifier"

  /** Why a configuration is refused, in the order the checks run. */
  datatype ConfigError =
    | ServerMissing
    | BucketMissing
    | BadHeartbeatUrl(cause: string)
    | ArgsMissing

  function ErrorText(e: ConfigError): string {
    match e
    case ServerMissing => "influx_server is required"
    case BucketMissing => "influx_bucket is required"
    case BadHeartbeatUrl(cause) => "failed to parse heartbeat_url: " + cause
    case ArgsMissing => "midea_beautiful_air_cli_discover_args is required"
  }

  /** `url.Parse` is not modelled: a parameter says which heartbeat URLs it
      rejects, and with what message. */
  type UrlCheck = string -> Option<string>

  /** `ConfigFromFile`'s result pair: the configuration and a nil-or-error. */
  datatype Loaded = Loaded(config: Config, err: Option<ConfigError>)

  /** The checks ConfigFromFile runs on the decoded file. The first failing
      check decides the error, and every error comes with the zero Config;
      on success only an empty measurement name is replaced by the default. */
  function Validate(c: Config, urlCheck: UrlCheck): (r: Loaded)
    ensures r.err.Some? ==> r.config == ZeroConfig
    ensures r.err == Some(ServerMissing) <==> c.influxServer == ""
    ensures r.err == Some(BucketMissing) <==> c.influxServer != "" && c.influxBucket == ""
    ensures r.err.Some? && r.err.value.BadHeartbeatUrl? <==>
      c.influxServer != "" && c.influxBucket != "" && c.heartbeatUrl != "" && urlCheck(c.heartbeatUrl).Some?
    ensures r.err.Some? && r.err.value.BadHeartbeatUrl? ==> r.err.value.cause == urlCheck(c.heartbeatUrl).value
    ensures r.err == Some(ArgsMissing) <==>
      && c.influxServer != "" && c.influxBucket != ""
      && (c.heartbeatUrl == "" || urlCheck(c.heartbeatUrl).None?)
      && |c.mideaArgs| == 0
    ensures r.err.None? ==>
      && r.config.measurementName == (if c.measurementName == "" then DefaultMeasurementName else c.measurementName)
      && r.config.(measurementName := c.measurementName) == c
  {
    var c := if c.measurementName == "" then c.(measurementName := DefaultMeasurementName) else c;
    if c.influxServer == "" then Loaded(ZeroConfig, Some(ServerMissing))
    else if c.influxBucket == "" then Loaded(ZeroConfig, Some(BucketMissing))
    else if c.heartbeatUrl != "" && urlCheck(c.heartbeatUrl).Some? then
      Loaded(ZeroConfig, Some(BadHeartbeatUrl(urlCheck(c.heartbeatUrl).value)))
    else if |c.mideaArgs| == 0 then Loaded(ZeroConfig, Some(ArgsMissing))
    else Loaded(c, None)
  }

  /** main.go sends to the time-series database when this holds. */
  predicate InfluxConfigured(c: Config) {
    c.influxServer != "" && c.influxBucket != ""
  }

  /** main.go publishes to the MQTT broker when this holds. */
  predicate MqttConfigured(c: Config) {
    c.mqttHost != "" && c.mqttTopic != ""
  }

  /** The credential handed to the InfluxDB client: `user:password` when
      either half is set, else the token, else nothing. */
  function AuthString(c: Config): (r: string)
    ensures c.influxUser != "" || c.influxPass != "" ==> r == c.influxUser + ":" + c.influxPass
    ensures c.influxUser == "" && c.influxPass == "" ==> r == c.influxToken
  {
    if c.influxUser != "" || c.influxPass != "" then c.influxUser + ":" + c.influxPass
    else if c.influxToken != "" then c.influxToken
    else ""
  }

  /** The token plays no part once a user or password is configured. */
  lemma TokenIgnoredWithPassword(c: Config, token: string)
    requires c.influxUser != "" || c.influxPass != ""
    ensures AuthString(c.(influxToken := token)) == AuthString(c)
  {
  }

  /** The client is given no credential exactly when user, password and
      token are all empty. */
  lemma NoCredentialIff(c: Config)
    ensures AuthString(c) == "" <==> c.influxUser == "" && c.influxPass == "" && c.influxToken == ""
  {
    if c.influxUser != "" || c.influxPass != "" {
      assert |AuthString(c)| > 0;
    }
  }

  /** A configuration that loads always has the time-series sink configured
      and a non-empty measurement name. */
  lemma LoadedConfigIsInfluxConfigured(c: Config, urlCheck: UrlCheck)
    requires Validate(c, urlCheck).err.None?
    ensures InfluxConfigured(Validate(c, urlCheck).config)
    ensures Validate(c, urlCheck).config.measurementName != ""
  {
  }

  /** Loading is idempotent: validating a loaded configuration again
      succeeds and changes nothing. */
  lemma ValidateIdempotent(c: Config, urlCheck: UrlCheck)
    requires Validate(c, urlCheck).err.None?
    ensures Validate(Validate(c, urlCheck).config, urlCheck) == Validate(c, urlCheck)
  {
  }
}

=== FILE: conv.dfy ===
/**
 * Textual value converters (conv.go). `ConvFloat` is a thin wrapper over
 * `strconv.ParseFloat`; floating point is not modelled, so the parser takes
 * that conversion as a parameter of type `NumParser` instead.
 */
module Conv {
  import opened Wrappers
  import opened Text

  /** `strconv.ParseFloat(s, 64)`: `Some(x)` when `s` is a valid number. */
  type NumParser = string -> Option<real>

  /** `strconv.FormatFloat(x, 'f', -1, 64)`. */
  type NumFormatter = real -> string

  /** The pair `(bool, error)` that `ConvBool` returns; `err` is `None` for nil. */
  datatype BoolConv = BoolConv(value: bool, err: Option<string>)

  /** Case-insensitive, whole-string match of "true" or "false"; anything
      else is an error that quotes the offending input. */
  function ConvBool(s: string): (r: BoolConv)
    ensures r.err.None? && r.value <==> EqualFold(s, "true")
    ensures r.err.None? && !r.value <==> EqualFold(s, "false")
    ensures r.err.Some? ==> !r.value && r.err.value == "invalid boolean value: " + s
  {
    var l := ToLower(s);
    assert l == "true" <==> EqualFold(s, "true") by {
      if EqualFold(s, "true") {
        assert forall i :: 0 <= i < 4 ==> l[i] == "true"[i];
      }
    }
    assert l == "false" <==> EqualFold(s, "false") by {
      if EqualFold(s, "false") {
        assert forall i :: 0 <= i < 5 ==> l[i] == "false"[i];
      }
    }
    if l == "true" then BoolConv(true, None)
    else if l == "false" then BoolConv(false, None)
    else BoolConv(false, Some("invalid boolean value: " + s))
  }

  /** `strconv.FormatBool`, the MQTT payload of a boolean field. */
  function FormatBool(b: bool): string {
    if b then "true" else "false"
  }

  /** A boolean payload converts back to the boolean it was rendered from. */
  lemma FormatBoolRoundTrip(b: bool)
    ensures ConvBool(FormatBool(b)) == BoolConv(b, None)
  {
    if b {
      assert EqualFold("true", "true");
    } else {
      assert EqualFold("false", "false");
    }
  }

  /** The conversion ignores letter case: two inputs that differ only in the
      case of ASCII letters convert to the same value, and one fails exactly
      when the other does. */
  lemma {:induction false} ConvBoolIgnoresCase(s: string, t: string)
    requires EqualFold(s, t)
    ensures ConvBool(s).value == ConvBool(t).value
    ensures ConvBool(s).err.None? <==> ConvBool(t).err.None?
  {
    assert EqualFold(s, "true") <==> EqualFold(t, "true");
    assert EqualFold(s, "false") <==> EqualFold(t, "false");
  }

  /** No white space is trimmed: a padded token is rejected, so callers have
      to trim first. */
  lemma PaddedTokenRejected(s: string)
    requires |s| > 0 && (IsSpace(s[0]) || IsSpace(s[|s| - 1]))
    ensures ConvBool(s).err.Some?
  {
    assert !IsSpace(Lower('t')) && !IsSpace(Lower('f')) && !IsSpace(Lower('e'));
  }
}

=== FILE: filter.dfy ===
/**
 * The record filter of main.go and the "no devices" decision taken on its
 * result before any sink is written.
 */
module Filter {
  import opened Parser

  /** Exit status used when no device has data to report. */
  const NoDevicesExitCode := 11

  /** A field that rules its record out: `online` false, or `temp_c` exactly
      zero (the tool's "no reading"). */
  predicate Disqualifies(f: Field) {
    || (f.key == "online" && f.value == B(false))
    || (f.key == "temp_c" && f.value == N(0.0))
  }

  /** A record survives the filter when none of its fields disqualifies it;
      records without those fields survive. */
  predicate Survives(r: Record) {
    forall i :: 0 <= i < |r.fields| ==> !Disqualifies(r.fields[i])
  }

  /** The filter callback: scans the fields in order, returning false at the
      first disqualifying one. The type assertions of the source rely on
      well-typed fields. */
  function KeepFields(fields: seq<Field>): (keep: bool)
    requires forall i :: 0 <= i < |fields| ==> FieldWellTyped(fields[i])
    ensures keep <==> forall i :: 0 <= i < |fields| ==> !Disqualifies(fields[i])
  {
    if |fields| == 0 then true
    else
      var f := fields[0];
      assert FieldWellTyped(f) && IsBoolFieldName("online") && IsNumFieldName("temp_c");
      if f.key == "online" && !f.value.b then false
      else if f.key == "temp_c" && f.value.n == 0.0 then false
      else
        assert forall i :: 1 <= i < |fields| ==> fields[1..][i - 1] == fields[i];
        KeepFields(fields[1..])
  }

  /** All records are well typed. */
  predicate AllWellTyped(rs: seq<Record>) {
    forall i :: 0 <= i < |rs| ==> WellTyped(rs[i])
  }

  /** `lo.Filter` with the callback above: the surviving records, in order. */
  function FilterRecords(rs: seq<Record>): (out: seq<Record>)
    requires AllWellTyped(rs)
    ensures |out| <= |rs|
    ensures forall r :: r in out ==> r in rs && Survives(r)
    ensures forall r :: r in rs && Survives(r) ==> r in out
  {
    if |rs| == 0 then []
    else
      assert AllWellTyped(rs[1..]) by {
        forall i | 0 <= i < |rs| - 1 ensures rs[1..][i] == rs[i + 1] { }
      }
      var rest := FilterRecords(rs[1..]);
      assert forall r :: r in rs ==> r == rs[0] || r in rs[1..];
      if KeepFields(rs[0].fields) then [rs[0]] + rest else rest
  }

  /** Filtering distributes over concatenation: the relative order of the
      surviving records is that of the input. */
  lemma {:induction false} FilterAppend(a: seq<Record>, b: seq<Record>)
    requires AllWellTyped(a) && AllWellTyped(b)
    ensures AllWellTyped(a + b)
    ensures FilterRecords(a + b) == FilterRecords(a) + FilterRecords(b)
    decreases |a|
  {
    assert AllWellTyped(a + b) by {
      forall i | 0 <= i < |a + b| ensures WellTyped((a + b)[i]) {
        if i >= |a| { assert (a + b)[i] == b[i - |a|]; }
      }
    }
    if |a| > 0 {
      assert AllWellTyped(a[1..]) by {
        forall i | 0 <= i < |a| - 1 ensures a[1..][i] == a[i + 1] { }
      }
      assert (a + b)[1..] == a[1..] + b;
      FilterAppend(a[1..], b);
    } else {
      assert a + b == b;
    }
  }

  /** A single record is kept exactly when it survives. */
  lemma FilterSingle(r: Record)
    requires WellTyped(r)
    ensures AllWellTyped([r])
    ensures FilterRecords([r]) == if Survives(r) then [r] else []
  {
    assert [r][1..] == [];
  }

  /** Filtering twice is filtering once. */
  lemma {:induction false} FilterIdempotent(rs: seq<Record>)
    requires AllWellTyped(rs)
    ensures AllWellTyped(FilterRecords(rs))
    ensures FilterRecords(FilterRecords(rs)) == FilterRecords(rs)
    decreases |rs|
  {
    var out := FilterRecords(rs);
    assert AllWellTyped(out) by {
      forall i | 0 <= i < |out| ensures WellTyped(out[i]) {
        assert out[i] in out;
        var j :| 0 <= j < |rs| && rs[j] == out[i];
      }
    }
    if |rs| > 0 {
      assert AllWellTyped(rs[1..]) by {
        forall i | 0 <= i < |rs| - 1 ensures rs[1..][i] == rs[i + 1] { }
      }
      FilterIdempotent(rs[1..]);
      var rest := FilterRecords(rs[1..]);
      if Survives(rs[0]) {
        assert out == [rs[0]] + rest;
        assert out[1..] == rest;
      }
    }
  }

  /** What happens after filtering: the program either stops with
      `NoDevicesExitCode` before touching any sink, or reports the points. */
  datatype Decision = NoDevices(exitCode: int) | Report(points: seq<Record>)

  /** Stops when no record survives; otherwise reports the survivors. */
  function Decide(rs: seq<Record>): (d: Decision)
    requires AllWellTyped(rs)
    ensures d.NoDevices? <==> forall i :: 0 <= i < |rs| ==> !Survives(rs[i])
    ensures d.NoDevices? ==> d.exitCode == NoDevicesExitCode
    ensures d.Report? ==> d.points == FilterRecords(rs) && |d.points| > 0
  {
    var points := FilterRecords(rs);
    assert |points| == 0 <==> forall i :: 0 <= i < |rs| ==> !Survives(rs[i]) by {
      if |points| > 0 {
        assert points[0] in points;
      } else {
        forall i | 0 <= i < |rs| ensures !Survives(rs[i]) {
          assert rs[i] in rs;
        }
      }
    }
    if |points| == 0 then NoDevices(NoDevicesExitCode) else Report(points)
  }
}

=== FILE: mqtt.dfy ===
/**
 * `publishToMQTT` of main.go: every field of every point becomes one
 * message on `<base>/<device id>/<field key>`, published in order; the
 * first publish the broker fails ends the attempt with an error.
 */
module Mqtt {
  import opened Wrappers
  import opened Conv
  import opened Parser

  datatype Message = Message(topic: string, payload: string)

  /** The value of the first `id` tag, or "" when there is none. */
  function DeviceId(tags: seq<Tag>): (id: string)
    ensures (forall i :: 0 <= i < |tags| ==> tags[i].key != "id") ==> id == ""
    ensures forall i ::
      0 <= i < |tags| && tags[i].key == "id" && (forall j :: 0 <= j < i ==> tags[j].key != "id") ==>
        id == tags[i].value
  {
    if |tags| == 0 then ""
    else if tags[0].key == "id" then tags[0].value
    else
      assert forall i :: 1 <= i < |tags| ==> tags[1..][i - 1] == tags[i];
      DeviceId(tags[1..])
  }

  function Topic(base: string, device: string, key: string): string {
    base + "/" + device + "/" + key
  }

  /** The payload of a field: "true"/"false" for booleans, the formatted
      number otherwise. */
  function Payload(formatNum: NumFormatter, v: Value): string {
    match v
    case B(b) => FormatBool(b)
    case N(n) => formatNum(n)
  }

  /** The messages of one point, one per field, in field order. */
  function RecordMessages(base: string, formatNum: NumFormatter, r: Record): (ms: seq<Message>)
    ensures |ms| == |r.fields|
    ensures forall j :: 0 <= j < |ms| ==>
      ms[j] == Message(Topic(base, DeviceId(r.tags), r.fields[j].key), Payload(formatNum, r.fields[j].value))
  {
    seq(|r.fields|, j requires 0 <= j < |r.fields| =>
      Message(Topic(base, DeviceId(r.tags), r.fields[j].key), Payload(formatNum, r.fields[j].value)))
  }

  /** The number of fields over all points. */
  function TotalFields(rs: seq<Record>): nat
    decreases |rs|
  {
    if |rs| == 0 then 0 else TotalFields(rs[..|rs| - 1]) + |rs[|rs| - 1].fields|
  }

  /** Every message of a complete attempt, points in order and fields in
      order within each point. */
  function Messages(base: string, formatNum: NumFormatter, rs: seq<Record>): (ms: seq<Message>)
    ensures |ms| == TotalFields(rs)
    decreases |rs|
  {
    if |rs| == 0 then []
    else Messages(base, formatNum, rs[..|rs| - 1]) + RecordMessages(base, formatNum, rs[|rs| - 1])
  }

  /** Field j of point i is message number `TotalFields(rs[..i]) + j`: the
      expansion keeps both orders and loses nothing. */
  lemma {:induction false} MessageAt(base: string, formatNum: NumFormatter, rs: seq<Record>, i: nat, j: nat)
    requires i < |rs| && j < |rs[i].fields|
    ensures TotalFields(rs[..i]) + j < |Messages(base, formatNum, rs)|
    ensures Messages(base, formatNum, rs)[TotalFields(rs[..i]) + j] ==
      Message(Topic(base, DeviceId(rs[i].tags), rs[i].fields[j].key), Payload(formatNum, rs[i].fields[j].value))
    decreases |rs|
  {
    var n := |rs| - 1;
    var init := rs[..n];
    var before := Messages(base, formatNum, init);
    assert Messages(base, formatNum, rs) == before + RecordMessages(base, formatNum, rs[n]);
    if i == n {
      assert rs[..i] == init;
      assert Messages(base, formatNum, rs)[|before| + j] == RecordMessages(base, formatNum, rs[n])[j];
    } else {
      assert init[..i] == rs[..i];
      MessageAt(base, formatNum, init, i, j);
      assert Messages(base, formatNum, rs)[TotalFields(rs[..i]) + j] == before[TotalFields(rs[..i]) + j];
    }
  }

  /** The fields of a prefix never outnumber those of the whole. */
  lemma {:induction false} TotalFieldsPrefix(rs: seq<Record>, i: nat)
    requires i < |rs|
    ensures TotalFields(rs[..i]) + |rs[i].fields| <= TotalFields(rs)
    decreases |rs|
  {
    var n := |rs| - 1;
    if i < n {
      assert rs[..n][..i] == rs[..i];
      TotalFieldsPrefix(rs[..n], i);
    } else {
      assert rs[..i] == rs[..n];
    }
  }

  /** A boolean field's payload reads back as the same boolean. */
  lemma BoolPayloadRoundTrip(formatNum: NumFormatter, b: bool)
    ensures ConvBool(Payload(formatNum, B(b))) == BoolConv(b, None)
  {
    FormatBoolRoundTrip(b);
  }

  /** The error `publishToMQTT` returns for a failed publish. */
  function PublishError(topic: string, cause: string): string {
    "failed to publish to topic " + topic + ": " + cause
  }

  /** What one attempt did: the messages it handed to the broker, in order,
      and the error it returned (`None` for nil). */
  datatype Attempt = Attempt(sent: seq<Message>, err: Option<string>)

  /** Publishing `msgs` in order when the broker answers the k-th publish
      with `acks[k]` (`None` for an acknowledgement, `Some(e)` for error e). */
  function PublishAll(msgs: seq<Message>, acks: seq<Option<string>>): (a: Attempt)
    requires |acks| >= |msgs|
    ensures a.err.None? <==> forall k :: 0 <= k < |msgs| ==> acks[k].None?
    ensures a.err.None? ==> a.sent == msgs
    ensures a.err.Some? ==>
      && 0 < |a.sent| <= |msgs| && a.sent == msgs[..|a.sent|]
      && (forall k :: 0 <= k < |a.sent| - 1 ==> acks[k].None?)
      && acks[|a.sent| - 1].Some?
      && a.err.value == PublishError(msgs[|a.sent| - 1].topic, acks[|a.sent| - 1].value)
    decreases |msgs|
  {
    if |msgs| == 0 then Attempt([], None)
    else if acks[0].Some? then Attempt([msgs[0]], Some(PublishError(msgs[0].topic, acks[0].value)))
    else
      var rest := PublishAll(msgs[1..], acks[1..]);
      assert forall k :: 1 <= k < |msgs| ==> acks[1..][k - 1] == acks[k];
      assert rest.err.Some? ==> msgs[1..][..|rest.sent|] == msgs[1..|rest.sent| + 1];
      Attempt([msgs[0]] + rest.sent, rest.err)
  }

  /** An attempt whose k-th publish is the first to fail sends the first
      k + 1 messages and reports the k-th topic. */
  lemma PublishAllFailsAt(msgs: seq<Message>, acks: seq<Option<string>>, k: nat)
    requires |acks| >= |msgs| && k < |msgs|
    requires forall j :: 0 <= j < k ==> acks[j].None?
    requires acks[k].Some?
    ensures PublishAll(msgs, acks) == Attempt(msgs[..k + 1], Some(PublishError(msgs[k].topic, acks[k].value)))
  {
    var a := PublishAll(msgs, acks);
    assert a.err.Some?;
    assert |a.sent| - 1 == k;
  }

  /** One more publish of an attempt that has succeeded so far: it extends
      the sent prefix and, if the broker refuses it, ends the attempt. */
  lemma SendNext(msgs: seq<Message>, acks: seq<Option<string>>, sent: seq<Message>, m: Message)
    requires |acks| >= |msgs| && |sent| < |msgs|
    requires sent == msgs[..|sent|] && msgs[|sent|] == m
    requires forall j :: 0 <= j < |sent| ==> acks[j].None?
    ensures sent + [m] == msgs[..|sent| + 1]
    ensures acks[|sent|].None? ==> forall j :: 0 <= j < |sent| + 1 ==> acks[j].None?
    ensures acks[|sent|].Some? ==>
      Attempt(sent + [m], Some(PublishError(m.topic, acks[|sent|].value))) == PublishAll(msgs, acks)
  {
    var k := |sent|;
    assert msgs[..k + 1] == msgs[..k] + [msgs[k]];
    if acks[k].Some? {
      PublishAllFailsAt(msgs, acks, k);
    }
  }

  /** The inner loop of `publishToMQTT` over the tags of one point. */
  method FindDeviceId(tags: seq<Tag>) returns (id: string)
    ensures id == DeviceId(tags)
  {
    id := "";
    var t := 0;
    while t < |tags|
      invariant 0 <= t <= |tags|
      invariant forall u :: 0 <= u < t ==> tags[u].key != "id"
    {
      if tags[t].key == "id" {
        id := tags[t].value;
        return;
      }
      t := t + 1;
    }
  }

  /** The fields up to and including point i. */
  lemma TotalFieldsStep(rs: seq<Record>, i: nat)
    requires i < |rs|
    ensures TotalFields(rs[..i + 1]) == TotalFields(rs[..i]) + |rs[i].fields| <= TotalFields(rs)
  {
    assert rs[..i + 1][..i] == rs[..i];
    TotalFieldsPrefix(rs, i);
  }

  /** Sending field j of point i extends the sent prefix of all messages. */
  lemma SendStep(base: string, formatNum: NumFormatter, rs: seq<Record>, i: nat, j: nat, sent: seq<Message>)
    requires i < |rs| && j < |rs[i].fields|
    requires |sent| == TotalFields(rs[..i]) + j
    requires |sent| <= |Messages(base, formatNum, rs)| && sent == Messages(base, formatNum, rs)[..|sent|]
    ensures |sent| < |Messages(base, formatNum, rs)|
    ensures var m := Message(Topic(base, DeviceId(rs[i].tags), rs[i].fields[j].key), Payload(formatNum, rs[i].fields[j].value));
      Messages(base, formatNum, rs)[|sent|] == m && sent + [m] == Messages(base, formatNum, rs)[..|sent| + 1]
  {
    var ms := Messages(base, formatNum, rs);
    MessageAt(base, formatNum, rs, i, j);
    PrefixStep(ms, |sent|);
  }

  /** The prefix one longer is the prefix and the next message. */
  lemma PrefixStep(ms: seq<Message>, k: nat)
    requires k < |ms|
    ensures ms[..k + 1] == ms[..k] + [ms[k]]
  {
  }

  /** The inner loop of `publishToMQTT` over the fields of point `i`,
      continuing an attempt that has sent `sent0` so far. */
  method PublishFields(base: string, formatNum: NumFormatter, rs: seq<Record>, i: nat, deviceId: string,
                       acks: seq<Option<string>>, sent0: seq<Message>)
    returns (sent: seq<Message>, err: Option<string>)
    requires i < |rs| && deviceId == DeviceId(rs[i].tags)
    requires |acks| >= TotalFields(rs)
    requires |sent0| == TotalFields(rs[..i]) <= TotalFields(rs)
    requires sent0 == Messages(base, formatNum, rs)[..|sent0|]
    requires forall k :: 0 <= k < |sent0| ==> acks[k].None?
    ensures err.None? ==> |sent| == TotalFields(rs[..i + 1]) <= TotalFields(rs)
    ensures err.None? ==> sent == Messages(base, formatNum, rs)[..|sent|]
    ensures err.None? ==> forall k :: 0 <= k < |sent| ==> acks[k].None?
    ensures err.Some? ==> Attempt(sent, err) == PublishAll(Messages(base, formatNum, rs), acks)
  {
    ghost var msgs := Messages(base, formatNum, rs);
    var r := rs[i];
    TotalFieldsStep(rs, i);
    sent := sent0;
    err := None;
    var j := 0;
    while j < |r.fields|
      invariant 0 <= j <= |r.fields|
      invariant |sent| == TotalFields(rs[..i]) + j <= |msgs|
      invariant sent == msgs[..|sent|]
      invariant forall k :: 0 <= k < |sent| ==> acks[k].None?
    {
      var f := r.fields[j];
      var topic := Topic(base, deviceId, f.key);
      var payload := Payload(formatNum, f.value);
      var k := |sent|;
      SendStep(base, formatNum, rs, i, j, sent);
      SendNext(msgs, acks, sent, Message(topic, payload));
      sent := sent + [Message(topic, payload)];
      if acks[k].Some? {
        err := Some(PublishError(topic, acks[k].value));
        return;
      }
      j := j + 1;
    }
  }

  /** `publishToMQTT`, walking points and fields with nested loops as the
      source does; `acks` supplies the broker's answer to each publish. It
      sends exactly the messages `PublishAll` describes, and on success one
      publish per field. */
  method PublishToMqtt(base: string, formatNum: NumFormatter, rs: seq<Record>, acks: seq<Option<string>>)
    returns (sent: seq<Message>, err: Option<string>)
    requires |acks| >= TotalFields(rs)
    ensures Attempt(sent, err) == PublishAll(Messages(base, formatNum, rs), acks)
    ensures err.None? ==> |sent| == TotalFields(rs)
  {
    ghost var msgs := Messages(base, formatNum, rs);
    sent := [];
    err := None;
    var i := 0;
    assert rs[..0] == [];
    while i < |rs|
      invariant 0 <= i <= |rs|
      invariant |sent| == TotalFields(rs[..i]) <= |msgs|
      invariant sent == msgs[..|sent|] && err.None?
      invariant forall k :: 0 <= k < |sent| ==> acks[k].None?
    {
      var deviceId := FindDeviceId(rs[i].tags);
      TotalFieldsPrefix(rs, i);
      sent, err := PublishFields(base, formatNum, rs, i, deviceId, acks, sent);
      if err.Some? {
        return;
      }
      i := i + 1;
    }
    assert rs[..i] == rs;
    assert sent == msgs;
    assert PublishAll(msgs, acks).err.None?;
  }

  /** The messages of a prefix of the points are a prefix of all messages. */
  lemma {:induction false} MessagesPrefix(base: string, formatNum: NumFormatter, rs: seq<Record>, i: nat)
    requires i <= |rs|
    ensures |Messages(base, formatNum, rs[..i])| <= |Messages(base, formatNum, rs)|
    ensures Messages(base, formatNum, rs[..i]) == Messages(base, formatNum, rs)[..|Messages(base, formatNum, rs[..i])|]
    decreases |rs|
  {
    if i == |rs| {
      assert rs[..i] == rs;
    } else {
      var n := |rs| - 1;
      assert rs[..n][..i] == rs[..i];
      MessagesPrefix(base, formatNum, rs[..n], i);
    }
  }
}

=== FILE: parser.dfy ===
/**
 * The report parser of main.go: a left fold over the lines of the discovery
 * tool's output that opens one record per device marker line and attaches
 * tags and fields to the most recently opened record.
 */
module Parser {
  import opened Wrappers
  import opened Text
  import opened Conv

  /** A field value: the source only ever stores booleans and float64s. */
  datatype Value = B(b: bool) | N(n: real)

  datatype Tag = Tag(key: string, value: string)
  datatype Field = Field(key: string, value: Value)

  /** One InfluxDB point: a device's measurement snapshot. Tags and fields are
      kept in the order their keys were first added. */
  datatype Record = Record(measurement: string, tags: seq<Tag>, fields: seq<Field>)

  /** The position of the first `k` in `keys`, or `|keys|` if there is none. */
  function IndexOf(keys: seq<string>, k: string): (i: nat)
    ensures i <= |keys|
    ensures forall j :: 0 <= j < i ==> keys[j] != k
    ensures i < |keys| ==> keys[i] == k
    decreases |keys|
  {
    if |keys| == 0 then 0
    else if keys[0] == k then 0
    else IndexOf(keys[1..], k) + 1
  }

  function TagKeys(tags: seq<Tag>): (ks: seq<string>)
    ensures |ks| == |tags| && forall i :: 0 <= i < |tags| ==> ks[i] == tags[i].key
  {
    seq(|tags|, i requires 0 <= i < |tags| => tags[i].key)
  }

  function FieldKeys(fields: seq<Field>): (ks: seq<string>)
    ensures |ks| == |fields| && forall i :: 0 <= i < |fields| ==> ks[i] == fields[i].key
  {
    seq(|fields|, i requires 0 <= i < |fields| => fields[i].key)
  }

  /** `write.Point.AddTag`: the first tag with the same key takes the new
      value; a new key is appended. */
  function SetTag(tags: seq<Tag>, t: Tag): seq<Tag> {
    var i := IndexOf(TagKeys(tags), t.key);
    if i == |tags| then tags + [t] else tags[i := t]
  }

  /** `write.Point.AddField`: the first field with the same key takes the
      new value; a new key is appended. */
  function SetField(fields: seq<Field>, f: Field): seq<Field> {
    var i := IndexOf(FieldKeys(fields), f.key);
    if i == |fields| then fields + [f] else fields[i := f]
  }

  /** `AddField` for each of `fs` in turn. */
  function SetFields(fields: seq<Field>, fs: seq<Field>): seq<Field>
    decreases |fs|
  {
    if |fs| == 0 then fields else SetFields(SetField(fields, fs[0]), fs[1..])
  }

  /** The `[WARN] device <id> reports error <code>` log line. */
  datatype Warning = Warning(device: string, code: string)

  /** A Go runtime panic (index out of range) and the line that caused it. */
  datatype Panic =
    | MarkerWithoutSlash(line: nat)   // `Split(..., "/")[1]` on a marker with no '/'
    | NoCurrentRecord(line: nat)      // `points[len(points)-1]` with no point yet

  /** The parse loop's variables: `points`, the warnings logged so far, and
      `currentID`. */
  datatype State = State(records: seq<Record>, warnings: seq<Warning>, currentId: string)

  const Initial := State([], [], "")

  /** What a single line asks of the parser, judged without the state. */
  datatype Action =
    | Open(id: string)
    | BadMarker
    | Ignore
    | AddTag(tag: Tag)
    | AddFields(fields: seq<Field>)
    | Warn(code: string)
  {
    /** The action indexes the last record. */
    predicate NeedsRecord() {
      AddTag? || AddFields?
    }
  }

  /** How a trimmed key is handled. */
  datatype KeyKind =
    | TagKey(name: string)
    | BoolKey(name: string)
    | NumKey(name: string)
    | TempKey
    | ErrorKey
    | UnknownKey

  /** The key table of the parse loop's `switch`. */
  function KindOf(key: string): KeyKind {
    if key == "id" then TagKey("id")
    else if key == "addr" then TagKey("addr")
    else if key == "s/n" then TagKey("sn")
    else if key == "name" then TagKey("name")
    else if key == "version" then TagKey("version")
    else if key == "online" then BoolKey("online")
    else if key == "running" then BoolKey("running")
    else if key == "humid%" then NumKey("humidity_pct")
    else if key == "target%" then NumKey("target_humidity_pct")
    else if key == "temp" then TempKey
    else if key == "fan" then NumKey("fan")
    else if key == "tank" then BoolKey("tank_full")
    else if key == "filter" then BoolKey("filter_needs_cleaning")
    else if key == "sleep" then BoolKey("sleep")
    else if key == "error" then ErrorKey
    else UnknownKey
  }

  /** The names of the boolean fields the parser can produce. */
  predicate IsBoolFieldName(name: string) {
    name in {"online", "running", "tank_full", "filter_needs_cleaning", "sleep"}
  }

  /** The names of the numeric fields the parser can produce. */
  predicate IsNumFieldName(name: string) {
    name in {"humidity_pct", "target_humidity_pct", "fan", "temp_c", "temp_f"}
  }

  /** A field whose value has the type its name implies. */
  predicate FieldWellTyped(f: Field) {
    && (IsBoolFieldName(f.key) ==> f.value.B?)
    && (IsNumFieldName(f.key) ==> f.value.N?)
  }

  /** Every field of the record is well typed. */
  predicate WellTyped(r: Record) {
    forall i :: 0 <= i < |r.fields| ==> FieldWellTyped(r.fields[i])
  }

  /** `libwx.TempC(c).F()`, exact over the reals. */
  function CtoF(c: real): real {
    c * 9.0 / 5.0 + 32.0
  }

  /** The action for a `key = value` line with both sides already trimmed. A
      failed conversion is ignored (it is only logged at debug level). */
  function KeyAction(parseNum: NumParser, key: string, value: string): (a: Action)
    ensures a.AddTag? ==> KindOf(key).TagKey? && a.tag == Tag(KindOf(key).name, value)
    ensures a.AddFields? ==> 1 <= |a.fields| <= 2
    ensures a.AddFields? ==> forall i :: 0 <= i < |a.fields| ==> FieldWellTyped(a.fields[i])
    ensures a.AddFields? && |a.fields| == 2 ==>
      KindOf(key).TempKey? && a.fields[0].key == "temp_c" && a.fields[1].key == "temp_f"
      && a.fields[0].value.N? && a.fields[1].value == N(CtoF(a.fields[0].value.n))
    ensures a.Warn? <==> KindOf(key).ErrorKey? && value != "0"
    ensures a.Warn? ==> a.code == value
    ensures !a.Open? && !a.BadMarker?
    ensures KindOf(key).UnknownKey? ==> a.Ignore?
    // a value key adds its fields exactly when the value converts, and a
    // failed conversion adds nothing
    ensures (KindOf(key).NumKey? || KindOf(key).TempKey?) ==> (a.AddFields? <==> parseNum(value).Some?)
    ensures (KindOf(key).NumKey? || KindOf(key).TempKey?) && a.AddFields? ==>
      a.fields[0].value == N(parseNum(value).value)
    ensures KindOf(key).BoolKey? ==> (a.AddFields? <==> ConvBool(value).err.None?)
    ensures (KindOf(key).NumKey? || KindOf(key).BoolKey?) && a.AddFields? ==>
      |a.fields| == 1 && a.fields[0].key == KindOf(key).name
    ensures KindOf(key).BoolKey? && a.AddFields? ==> a.fields[0].value == B(ConvBool(value).value)
    ensures !a.Ignore? ==> !KindOf(key).UnknownKey?
    // a tag key always adds its (renamed) tag, and `error` warns or is ignored
    ensures KindOf(key).TagKey? ==> a == AddTag(Tag(KindOf(key).name, value))
    ensures KindOf(key).ErrorKey? ==> a == (if value != "0" then Warn(value) else Ignore)
  {
    match KindOf(key)
    case TagKey(name) => AddTag(Tag(name, value))
    case BoolKey(name) =>
      var b := ConvBool(value);
      if b.err.None? then AddFields([Field(name, B(b.value))]) else Ignore
    case NumKey(name) =>
      (match parseNum(value)
       case Some(f) => AddFields([Field(name, N(f))])
       case None => Ignore)
    case TempKey =>
      (match parseNum(value)
       case Some(f) => AddFields([Field("temp_c", N(f)), Field("temp_f", N(CtoF(f)))])
       case None => Ignore)
    case ErrorKey => if value != "0" then Warn(value) else Ignore
    case UnknownKey => Ignore
  }

  /** A raw line (before any trimming) that opens a new record. */
  predicate IsMarker(l: string) {
    HasPrefix(l, "id ")
  }

  /** The device ID a marker line names: the second '/'-separated segment of
      the trimmed line, if there is one. */
  function MarkerId(l: string): Option<string> {
    var parts := Split(Trim(l), '/');
    if |parts| < 2 then None else Some(parts[1])
  }

  /** The action of one raw line of the report. */
  function Classify(parseNum: NumParser, l: string): (a: Action)
    ensures IsMarker(l) ==> (a.Open? || a.BadMarker?)
    ensures IsMarker(l) ==> (a.BadMarker? <==> '/' !in Trim(l))
    ensures !IsMarker(l) ==> !a.Open? && !a.BadMarker?
    ensures !IsMarker(l) && (Trim(l) == [] || '=' !in Trim(l)) ==> a.Ignore?
    ensures a.AddFields? ==> forall i :: 0 <= i < |a.fields| ==> FieldWellTyped(a.fields[i])
  {
    if IsMarker(l) then
      match MarkerId(l)
      case Some(id) => Open(id)
      case None => BadMarker
    else
      var t := Trim(l);
      if t == "" then Ignore
      else match Cut(t, '=')
        case None => Ignore
        case Some(kv) => KeyAction(parseNum, Trim(kv.0), Trim(kv.1))
  }

  /** The records before the last one, and the last one changed by `f`. */
  function UpdateLast(rs: seq<Record>, f: Record -> Record): (r: seq<Record>)
    requires |rs| > 0
    ensures |r| == |rs| && r[..|rs| - 1] == rs[..|rs| - 1] && r[|rs| - 1] == f(rs[|rs| - 1])
  {
    rs[..|rs| - 1] + [f(rs[|rs| - 1])]
  }

  /** One iteration of the parse loop, for the line at index `line`. */
  function Apply(name: string, st: State, a: Action, line: nat): (r: Result<State, Panic>)
    ensures a.BadMarker? ==> r == Failure(MarkerWithoutSlash(line))
    ensures a.NeedsRecord() && |st.records| == 0 ==> r == Failure(NoCurrentRecord(line))
    ensures r.Failure? ==> a.BadMarker? || (a.NeedsRecord() && |st.records| == 0)
    ensures a.Open? ==> r == Success(State(st.records + [Record(name, [], [])], st.warnings, a.id))
    ensures (a.Ignore? || a.Warn?) ==>
      r.Success? && r.value.records == st.records && r.value.currentId == st.currentId
    ensures a.Ignore? ==> r == Success(st)
    ensures a.Warn? ==> r.value.warnings == st.warnings + [Warning(st.currentId, a.code)]
    ensures a.NeedsRecord() && r.Success? ==>
      var n := |st.records|;
      && |r.value.records| == n
      && r.value.records[..n - 1] == st.records[..n - 1]
      && r.value.records[n - 1].measurement == st.records[n - 1].measurement
      && r.value.warnings == st.warnings && r.value.currentId == st.currentId
    ensures a.AddTag? && r.Success? ==>
      var last := r.value.records[|st.records| - 1];
      last.tags == SetTag(st.records[|st.records| - 1].tags, a.tag)
      && last.fields == st.records[|st.records| - 1].fields
    ensures a.AddFields? && r.Success? ==>
      var last := r.value.records[|st.records| - 1];
      last.fields == SetFields(st.records[|st.records| - 1].fields, a.fields)
      && last.tags == st.records[|st.records| - 1].tags
  {
    match a
    case Open(id) => Success(State(st.records + [Record(name, [], [])], st.warnings, id))
    case BadMarker => Failure(MarkerWithoutSlash(line))
    case Ignore => Success(st)
    case Warn(code) => Success(st.(warnings := st.warnings + [Warning(st.currentId, code)]))
    case AddTag(t) =>
      if |st.records| == 0 then Failure(NoCurrentRecord(line))
      else Success(st.(records := UpdateLast(st.records, (rec: Record) => rec.(tags := SetTag(rec.tags, t)))))
    case AddFields(fs) =>
      if |st.records| == 0 then Failure(NoCurrentRecord(line))
      else Success(st.(records := UpdateLast(st.records, (rec: Record) => rec.(fields := SetFields(rec.fields, fs)))))
  }

  /** The action of every line, in order. */
  function Actions(parseNum: NumParser, lines: seq<string>): (acts: seq<Action>)
    ensures |acts| == |lines|
    ensures forall i :: 0 <= i < |lines| ==> acts[i] == Classify(parseNum, lines[i])
  {
    seq(|lines|, i requires 0 <= i < |lines| => Classify(parseNum, lines[i]))
  }

  /** The parse loop over the lines' actions, stopping at the first panic. */
  function Run(name: string, acts: seq<Action>): Result<State, Panic>
    decreases |acts|
  {
    if |acts| == 0 then Success(Initial)
    else
      match Run(name, acts[..|acts| - 1])
      case Failure(p) => Failure(p)
      case Success(st) => Apply(name, st, acts[|acts| - 1], |acts| - 1)
  }

  /** The parse loop over `lines`. */
  function Parse(name: string, parseNum: NumParser, lines: seq<string>): Result<State, Panic> {
    Run(name, Actions(parseNum, lines))
  }

  /** The whole discovery output, split on line feeds as `strings.Split` does. */
  function ParseReport(name: string, parseNum: NumParser, out: string): Result<State, Panic> {
    Parse(name, parseNum, Split(out, '\n'))
  }
}

=== FILE: parser_facts.dfy ===
/**
 * What the parse loop computes, stated against definitions that do not
 * follow the loop: record k is built from exactly the lines between the
 * k-th marker and the next one, the device ID is that of the latest marker,
 * and the loop panics exactly at the first line that indexes out of range.
 * The loop's structure is proved over the lines' actions; the last lemmas
 * carry the results back to the raw lines.
 */
module ParserFacts {
  import opened Wrappers
  import opened Text
  import opened Conv
  import opened Parser
  import Points

  /** The positions of the record-opening actions, in increasing order. */
  function Opens(acts: seq<Action>): (p: seq<nat>)
    ensures forall k :: 0 <= k < |p| ==> p[k] < |acts| && acts[p[k]].Open?
    ensures forall k, m :: 0 <= k < m < |p| ==> p[k] < p[m]
    decreases |acts|
  {
    if |acts| == 0 then []
    else
      var p := Opens(acts[..|acts| - 1]);
      if acts[|acts| - 1].Open? then p + [|acts| - 1] else p
  }

  /** `Opens` misses no opening action. */
  lemma {:induction false} OpensComplete(acts: seq<Action>, j: nat)
    requires j < |acts| && acts[j].Open?
    ensures j in Opens(acts)
    decreases |acts|
  {
    if j < |acts| - 1 {
      var init := acts[..|acts| - 1];
      assert init[j] == acts[j];
      OpensComplete(init, j);
    }
  }

  /** The tags of the current record after one action. */
  function StepTags(tags: seq<Tag>, a: Action): seq<Tag> {
    if a.AddTag? then SetTag(tags, a.tag) else tags
  }

  /** The fields of the current record after one action. */
  function StepFields(fields: seq<Field>, a: Action): seq<Field> {
    if a.AddFields? then SetFields(fields, a.fields) else fields
  }

  /** The tags a run of actions builds up from none. */
  function TagsOf(acts: seq<Action>): seq<Tag>
    decreases |acts|
  {
    if |acts| == 0 then [] else StepTags(TagsOf(acts[..|acts| - 1]), acts[|acts| - 1])
  }

  /** The fields a run of actions builds up from none. */
  function FieldsOf(acts: seq<Action>): seq<Field>
    decreases |acts|
  {
    if |acts| == 0 then [] else StepFields(FieldsOf(acts[..|acts| - 1]), acts[|acts| - 1])
  }

  /** The actions after the k-th opening one, up to the next or the end. */
  function Block(acts: seq<Action>, k: nat): seq<Action>
    requires k < |Opens(acts)|
  {
    var p := Opens(acts);
    var stop := if k + 1 < |p| then p[k + 1] else |acts|;
    acts[p[k] + 1..stop]
  }

  /** The record the k-th device block describes. */
  function BlockRecord(name: string, acts: seq<Action>, k: nat): Record
    requires k < |Opens(acts)|
  {
    var b := Block(acts, k);
    Record(name, TagsOf(b), FieldsOf(b))
  }

  lemma TagsOfSnoc(acts: seq<Action>, a: Action)
    ensures TagsOf(acts + [a]) == StepTags(TagsOf(acts), a)
  {
    assert (acts + [a])[..|acts|] == acts;
  }

  lemma FieldsOfSnoc(acts: seq<Action>, a: Action)
    ensures FieldsOf(acts + [a]) == StepFields(FieldsOf(acts), a)
  {
    assert (acts + [a])[..|acts|] == acts;
  }

  /** The opening positions after one more action. */
  lemma OpensSnoc(acts: seq<Action>, a: Action)
    ensures Opens(acts + [a]) == if a.Open? then Opens(acts) + [|acts|] else Opens(acts)
  {
    assert (acts + [a])[..|acts|] == acts;
  }

  /** A block that is closed by a later opening does not change when an
      action is appended. */
  lemma ClosedBlockKept(acts: seq<Action>, a: Action, k: nat)
    requires k + 1 < |Opens(acts)|
    ensures k + 1 < |Opens(acts + [a])|
    ensures Block(acts + [a], k) == Block(acts, k)
  {
    OpensSnoc(acts, a);
    var p := Opens(acts);
    assert Opens(acts + [a])[k + 1] == p[k + 1];
    SliceSnoc(acts, a, p[k] + 1, p[k + 1]);
  }

  /** Appending an opening action starts a new, empty block and leaves the
      earlier blocks alone. */
  lemma BlocksAfterOpen(acts: seq<Action>, a: Action)
    requires a.Open?
    ensures Opens(acts + [a]) == Opens(acts) + [|acts|]
    ensures forall k :: 0 <= k < |Opens(acts)| ==> Block(acts + [a], k) == Block(acts, k)
    ensures Block(acts + [a], |Opens(acts)|) == []
  {
    OpensSnoc(acts, a);
    var p := Opens(acts);
    forall k | 0 <= k < |p|
      ensures Block(acts + [a], k) == Block(acts, k)
    {
      if k + 1 < |p| {
        ClosedBlockKept(acts, a, k);
      } else {
        LastBlockClosed(acts, a);
      }
    }
  }

  /** An opening action closes the block that was open, unchanged. */
  lemma LastBlockClosed(acts: seq<Action>, a: Action)
    requires a.Open? && |Opens(acts)| > 0
    ensures Block(acts + [a], |Opens(acts)| - 1) == Block(acts, |Opens(acts)| - 1)
  {
    OpensSnoc(acts, a);
    var p := Opens(acts);
    var q := Opens(acts + [a]);
    var k := |p| - 1;
    assert q[k] == p[k] && q[k + 1] == |acts|;
    BlockIs(acts, k, p[k], |acts|);
    BlockIs(acts + [a], k, p[k], |acts|);
    SliceSnoc(acts, a, p[k] + 1, |acts|);
  }

  /** Block k runs from just after its opening to the next opening or the end. */
  lemma BlockIs(acts: seq<Action>, k: nat, start: nat, stop: nat)
    requires k < |Opens(acts)| && start == Opens(acts)[k]
    requires stop == if k + 1 < |Opens(acts)| then Opens(acts)[k + 1] else |acts|
    ensures start + 1 <= stop <= |acts|
    ensures Block(acts, k) == acts[start + 1..stop]
  {
  }

  /** A slice within `acts` is unaffected by appending. */
  lemma SliceSnoc(acts: seq<Action>, a: Action, i: nat, j: nat)
    requires i <= j <= |acts|
    ensures (acts + [a])[i..j] == acts[i..j]
  {
  }

  /** Appending any other action extends the last block, if there is one,
      and leaves the earlier blocks alone. */
  lemma BlocksAfterOther(acts: seq<Action>, a: Action)
    requires !a.Open?
    ensures Opens(acts + [a]) == Opens(acts)
    ensures forall k :: 0 <= k < |Opens(acts)| - 1 ==> Block(acts + [a], k) == Block(acts, k)
    ensures |Opens(acts)| > 0 ==>
      Block(acts + [a], |Opens(acts)| - 1) == Block(acts, |Opens(acts)| - 1) + [a]
  {
    OpensSnoc(acts, a);
    var p := Opens(acts);
    forall k | 0 <= k < |p| - 1
      ensures Block(acts + [a], k) == Block(acts, k)
    {
      ClosedBlockKept(acts, a, k);
    }
    if |p| > 0 {
      var k := |p| - 1;
      assert (acts + [a])[p[k] + 1..|acts| + 1] == acts[p[k] + 1..|acts|] + [a];
    }
  }

  /** `records` are the block records of `acts`, one per opening action. */
  predicate Follows(name: string, acts: seq<Action>, records: seq<Record>) {
    && |records| == |Opens(acts)|
    && forall k :: 0 <= k < |records| ==> records[k] == BlockRecord(name, acts, k)
  }

  /** An opening step keeps the records in step with the blocks. */
  lemma StepFollowsOpen(name: string, acts: seq<Action>, a: Action, st0: State, st: State)
    requires Follows(name, acts, st0.records)
    requires a.Open?
    requires Apply(name, st0, a, |acts|) == Success(st)
    ensures Follows(name, acts + [a], st.records)
  {
    var m := |Opens(acts)|;
    BlocksAfterOpen(acts, a);
    assert st.records == st0.records + [Record(name, [], [])];
    forall k | 0 <= k < |st.records|
      ensures st.records[k] == BlockRecord(name, acts + [a], k)
    {
      if k < m {
        assert st.records[k] == st0.records[k];
      }
    }
  }

  /** Any other step keeps the records in step with the blocks. */
  lemma StepFollowsOther(name: string, acts: seq<Action>, a: Action, st0: State, st: State)
    requires Follows(name, acts, st0.records)
    requires !a.Open?
    requires Apply(name, st0, a, |acts|) == Success(st)
    ensures Follows(name, acts + [a], st.records)
  {
    var m := |Opens(acts)|;
    BlocksAfterOther(acts, a);
    OtherStepRecords(name, st0, a, |acts|, st);
    forall k | 0 <= k < m
      ensures st.records[k] == BlockRecord(name, acts + [a], k)
    {
      if k < m - 1 {
        assert st.records[k] == st.records[..m - 1][k];
        assert st0.records[k] == st0.records[..m - 1][k];
      } else {
        LastBlockStep(name, acts, a);
        assert st0.records[k] == BlockRecord(name, acts, k);
      }
    }
  }

  /** A step other than an opening one edits the last record, if any, and
      keeps the others. */
  lemma OtherStepRecords(name: string, st0: State, a: Action, line: nat, st: State)
    requires !a.Open?
    requires Apply(name, st0, a, line) == Success(st)
    ensures |st.records| == |st0.records|
    ensures |st0.records| == 0 ==> st.records == st0.records
    ensures |st0.records| > 0 ==>
      var n := |st0.records|;
      && st.records[..n - 1] == st0.records[..n - 1]
      && st.records[n - 1] == Record(st0.records[n - 1].measurement,
           StepTags(st0.records[n - 1].tags, a), StepFields(st0.records[n - 1].fields, a))
  {
  }

  /** The last block's record after one more action that does not open a
      block. */
  lemma LastBlockStep(name: string, acts: seq<Action>, a: Action)
    requires !a.Open? && |Opens(acts)| > 0
    ensures |Opens(acts + [a])| == |Opens(acts)|
    ensures var k := |Opens(acts)| - 1;
      var r := BlockRecord(name, acts, k);
      BlockRecord(name, acts + [a], k) == Record(name, StepTags(r.tags, a), StepFields(r.fields, a))
  {
    BlocksAfterOther(acts, a);
    var b0 := Block(acts, |Opens(acts)| - 1);
    TagsOfSnoc(b0, a);
    FieldsOfSnoc(b0, a);
  }

  /** The loop yields one record per opening action, in order, each named
      after the configured measurement and holding exactly the tags and
      fields that the actions of its own block contribute. */
  lemma {:induction false} RunFollowsBlocks(name: string, acts: seq<Action>)
    requires Run(name, acts).Success?
    ensures Follows(name, acts, Run(name, acts).value.records)
    decreases |acts|
  {
    if |acts| > 0 {
      var n := |acts| - 1;
      var init := acts[..n];
      assert acts == init + [acts[n]];
      RunFollowsBlocks(name, init);
      if acts[n].Open? {
        StepFollowsOpen(name, init, acts[n], Run(name, init).value, Run(name, acts).value);
      } else {
        StepFollowsOther(name, init, acts[n], Run(name, init).value, Run(name, acts).value);
      }
    }
  }

  /** The ID of the latest opening action, or "" before any. */
  function LastId(acts: seq<Action>): string
    decreases |acts|
  {
    if |acts| == 0 then ""
    else if acts[|acts| - 1].Open? then acts[|acts| - 1].id
    else LastId(acts[..|acts| - 1])
  }

  /** The warnings the loop logs, each naming the device opened last before
      its `error` line. */
  function WarningsOf(acts: seq<Action>): seq<Warning>
    decreases |acts|
  {
    if |acts| == 0 then []
    else
      var init := acts[..|acts| - 1];
      var a := acts[|acts| - 1];
      WarningsOf(init) + (if a.Warn? then [Warning(LastId(init), a.code)] else [])
  }

  /** `currentID` is the ID of the latest marker, and the logged warnings
      are exactly those of `WarningsOf`. */
  lemma {:induction false} RunWarnings(name: string, acts: seq<Action>)
    requires Run(name, acts).Success?
    ensures Run(name, acts).value.currentId == LastId(acts)
    ensures Run(name, acts).value.warnings == WarningsOf(acts)
    decreases |acts|
  {
    if |acts| > 0 {
      RunWarnings(name, acts[..|acts| - 1]);
    }
  }

  /** Action `i` panics if the loop reaches it: a marker with no '/', or an
      action on the current record while nothing has been opened yet. */
  predicate Offends(acts: seq<Action>, i: nat)
    requires i < |acts|
  {
    acts[i].BadMarker? || (acts[i].NeedsRecord() && forall j :: 0 <= j < i ==> !acts[j].Open?)
  }

  /** The loop panics exactly when some action offends, and then it panics
      at the first offending one. */
  lemma {:induction false} RunPanicsAtFirstOffence(name: string, acts: seq<Action>)
    ensures Run(name, acts).Failure? <==> exists i :: 0 <= i < |acts| && Offends(acts, i)
    ensures Run(name, acts).Failure? ==>
      var i := Run(name, acts).error.line;
      && i < |acts| && Offends(acts, i)
      && (forall j :: 0 <= j < i ==> !Offends(acts, j))
    decreases |acts|
  {
    if |acts| > 0 {
      var n := |acts| - 1;
      var init := acts[..n];
      RunPanicsAtFirstOffence(name, init);
      forall j | 0 <= j < n
        ensures Offends(acts, j) <==> Offends(init, j)
      {
        assert forall m :: 0 <= m <= j ==> acts[m] == init[m];
      }
      match Run(name, init)
      case Failure(e) =>
        assert Run(name, acts) == Failure(e);
        var i := e.line;
        assert Offends(acts, i);
      case Success(st0) =>
        RunFollowsBlocks(name, init);
        var p := Opens(init);
        var none := forall j :: 0 <= j < n ==> !acts[j].Open?;
        assert none <==> |st0.records| == 0 by {
          if |p| > 0 {
            assert init[p[0]].Open?;
          } else {
            forall j | 0 <= j < n
              ensures !init[j].Open?
            {
              if init[j].Open? {
                OpensComplete(init, j);
              }
            }
          }
        }
        assert Run(name, acts) == Apply(name, st0, acts[n], n);
        assert Run(name, acts).Failure? <==> Offends(acts, n);
        assert forall j :: 0 <= j < n ==> !Offends(acts, j);
    }
  }

  /** Every field an action of the run contributes is well typed. */
  predicate ActsWellTyped(acts: seq<Action>) {
    forall i :: 0 <= i < |acts| ==> acts[i].AddFields? ==>
      forall j :: 0 <= j < |acts[i].fields| ==> FieldWellTyped(acts[i].fields[j])
  }

  /** Only well-typed fields end up in the records. */
  lemma {:induction false} RunWellTyped(name: string, acts: seq<Action>)
    requires ActsWellTyped(acts)
    requires Run(name, acts).Success?
    ensures forall r :: r in Run(name, acts).value.records ==> WellTyped(r)
    decreases |acts|
  {
    if |acts| > 0 {
      var n := |acts| - 1;
      var init := acts[..n];
      assert ActsWellTyped(init) by {
        forall i | 0 <= i < n ensures init[i] == acts[i] { }
      }
      RunWellTyped(name, init);
      var st0 := Run(name, init).value;
      assert Run(name, acts) == Apply(name, st0, acts[n], n);
      StepWellTyped(name, st0, acts[n], n, Run(name, acts).value);
    }
  }

  /** One step of the loop keeps every record well typed when the fields
      it adds are. */
  lemma StepWellTyped(name: string, st0: State, a: Action, line: nat, st: State)
    requires forall r :: r in st0.records ==> WellTyped(r)
    requires a.AddFields? ==> forall j :: 0 <= j < |a.fields| ==> FieldWellTyped(a.fields[j])
    requires Apply(name, st0, a, line) == Success(st)
    ensures forall r :: r in st.records ==> WellTyped(r)
  {
    if a.Open? {
      assert forall r :: r in st.records ==> r in st0.records || r == Record(name, [], []);
    } else if a.NeedsRecord() {
      var m := |st0.records|;
      assert st.records[..m - 1] == st0.records[..m - 1];
      forall r | r in st.records
        ensures WellTyped(r)
      {
        var k :| 0 <= k < |st.records| && st.records[k] == r;
        if k < m - 1 {
          assert r == st0.records[..m - 1][k];
        } else {
          var old_ := st0.records[m - 1];
          assert old_ in st0.records;
          if a.AddFields? {
            assert r.fields == SetFields(old_.fields, a.fields);
            Points.SetFieldsWellTyped(old_.fields, a.fields);
          } else {
            assert r.fields == old_.fields;
          }
        }
      }
    }
  }

  // ---- Back to the raw lines ----

  /** In a run that does not panic, the actions that open records are
      exactly those of the lines starting with "id ". */
  lemma OpensAreMarkers(name: string, parseNum: NumParser, lines: seq<string>)
    requires Parse(name, parseNum, lines).Success?
    ensures var acts := Actions(parseNum, lines);
      forall i :: 0 <= i < |lines| ==> (acts[i].Open? <==> IsMarker(lines[i]))
  {
    var acts := Actions(parseNum, lines);
    RunPanicsAtFirstOffence(name, acts);
    forall i | 0 <= i < |lines|
      ensures acts[i].Open? <==> IsMarker(lines[i])
    {
      assert !Offends(acts, i);
    }
  }

  /** The parser yields exactly one record per raw line starting with "id ",
      in input order, each named after the configured measurement; record k
      holds exactly what the lines between the k-th such line and the next
      contribute. */
  lemma RecordPerMarker(name: string, parseNum: NumParser, lines: seq<string>)
    requires Parse(name, parseNum, lines).Success?
    ensures var st := Parse(name, parseNum, lines).value;
      var acts := Actions(parseNum, lines);
      var p := Opens(acts);
      && |st.records| == |p|
      && (forall k :: 0 <= k < |p| ==> p[k] < |lines| && IsMarker(lines[p[k]]))
      && (forall i :: 0 <= i < |lines| && IsMarker(lines[i]) ==> i in p)
      && (forall k :: 0 <= k < |p| ==> st.records[k] == BlockRecord(name, acts, k))
      && (forall k :: 0 <= k < |p| ==> st.records[k].measurement == name)
  {
    var acts := Actions(parseNum, lines);
    OpensAreMarkers(name, parseNum, lines);
    RunFollowsBlocks(name, acts);
    var p := Opens(acts);
    forall i | 0 <= i < |lines| && IsMarker(lines[i])
      ensures i in p
    {
      OpensComplete(acts, i);
    }
  }

  /** Every record the parser produces is well typed. */
  lemma ParsedRecordsWellTyped(name: string, parseNum: NumParser, lines: seq<string>)
    requires Parse(name, parseNum, lines).Success?
    ensures forall r :: r in Parse(name, parseNum, lines).value.records ==> WellTyped(r)
  {
    RunWellTyped(name, Actions(parseNum, lines));
  }

  // ---- What a record reads by key ----

  /** The value the latest tag line for `key` gave, if any. */
  function LatestTag(acts: seq<Action>, key: string): Option<string>
    decreases |acts|
  {
    if |acts| == 0 then None
    else
      var a := acts[|acts| - 1];
      if a.AddTag? && a.tag.key == key then Some(a.tag.value) else LatestTag(acts[..|acts| - 1], key)
  }

  /** The value the latest field line for `key` gave, if any. */
  function LatestField(acts: seq<Action>, key: string): Option<Value>
    decreases |acts|
  {
    if |acts| == 0 then None
    else
      var a := acts[|acts| - 1];
      if a.AddFields? && Points.LastValue(a.fields, key).Some? then Points.LastValue(a.fields, key)
      else LatestField(acts[..|acts| - 1], key)
  }

  /** A block's tags hold each key once and read the latest value given. */
  lemma {:induction false} TagsOfReadLatest(acts: seq<Action>, key: string)
    ensures Points.Distinct(TagKeys(TagsOf(acts)))
    ensures Points.TagValue(TagsOf(acts), key) == LatestTag(acts, key)
    decreases |acts|
  {
    if |acts| > 0 {
      var init := acts[..|acts| - 1];
      var a := acts[|acts| - 1];
      TagsOfReadLatest(init, key);
      if a.AddTag? {
        Points.SetTagDistinct(TagsOf(init), a.tag);
        Points.SetTagLookup(TagsOf(init), a.tag, key);
      }
    }
  }

  /** A block's fields hold each key once and read the latest value given. */
  lemma {:induction false} FieldsOfReadLatest(acts: seq<Action>, key: string)
    ensures Points.Distinct(FieldKeys(FieldsOf(acts)))
    ensures Points.FieldValue(FieldsOf(acts), key) == LatestField(acts, key)
    decreases |acts|
  {
    if |acts| > 0 {
      var init := acts[..|acts| - 1];
      var a := acts[|acts| - 1];
      FieldsOfReadLatest(init, key);
      if a.AddFields? {
        Points.SetFieldsDistinct(FieldsOf(init), a.fields);
        Points.SetFieldsLookup(FieldsOf(init), a.fields, key);
      }
    }
  }

  /** Each parsed record holds every tag and field key at most once, and a
      key reads the value of the latest line for it in the record's block:
      a repeated key overwrites, it does not add a second entry. */
  lemma ParsedRecordsReadLatest(name: string, parseNum: NumParser, lines: seq<string>, k: nat, key: string)
    requires Parse(name, parseNum, lines).Success?
    requires k < |Parse(name, parseNum, lines).value.records|
    ensures var r := Parse(name, parseNum, lines).value.records[k];
      var acts := Actions(parseNum, lines);
      && k < |Opens(acts)|
      && Points.Distinct(TagKeys(r.tags)) && Points.Distinct(FieldKeys(r.fields))
      && Points.TagValue(r.tags, key) == LatestTag(Block(acts, k), key)
      && Points.FieldValue(r.fields, key) == LatestField(Block(acts, k), key)
  {
    var acts := Actions(parseNum, lines);
    RecordPerMarker(name, parseNum, lines);
    TagsOfReadLatest(Block(acts, k), key);
    FieldsOfReadLatest(Block(acts, k), key);
  }

  /** The second '/'-separated segment of the latest marker line, or ""
      before any marker line. */
  function LastMarkerId(lines: seq<string>): string
    decreases |lines|
  {
    if |lines| == 0 then ""
    else if IsMarker(lines[|lines| - 1]) then
      match MarkerId(lines[|lines| - 1])
      case Some(id) => id
      case None => ""
    else LastMarkerId(lines[..|lines| - 1])
  }

  /** A marker line names its second '/'-separated segment: the text after
      the first '/' of the trimmed line, up to the next '/' or the end. */
  lemma MarkerIdSecondSegment(l: string, head: string, id: string, rest: string)
    requires Trim(l) == head + ['/'] + id + rest
    requires '/' !in head && '/' !in id
    requires rest == [] || rest[0] == '/'
    ensures MarkerId(l) == Some(id)
  {
    SplitSecond(head, '/', id, rest);
    assert Split(Trim(l), '/')[1] == id;
  }

  lemma ActionsPrefix(parseNum: NumParser, lines: seq<string>, n: nat)
    requires n <= |lines|
    ensures Actions(parseNum, lines[..n]) == Actions(parseNum, lines)[..n]
  {
  }

  lemma {:induction false} LastIdIsLastMarkerId(parseNum: NumParser, lines: seq<string>)
    requires forall i :: 0 <= i < |lines| ==> !Actions(parseNum, lines)[i].BadMarker?
    ensures LastId(Actions(parseNum, lines)) == LastMarkerId(lines)
    decreases |lines|
  {
    if |lines| > 0 {
      var n := |lines| - 1;
      var acts := Actions(parseNum, lines);
      ActionsPrefix(parseNum, lines, n);
      assert acts[..n] == Actions(parseNum, lines[..n]);
      forall i | 0 <= i < n
        ensures !Actions(parseNum, lines[..n])[i].BadMarker?
      {
        assert Actions(parseNum, lines[..n])[i] == acts[i];
      }
      LastIdIsLastMarkerId(parseNum, lines[..n]);
    }
  }

  /** The code an `error` line reports, if it reports one: a line that is
      not a marker, whose text before its first `=` trims to "error" and
      whose text after it trims to anything but "0". */
  function ReportedError(l: string): Option<string> {
    if IsMarker(l) then None
    else match Cut(Trim(l), '=')
      case None => None
      case Some(kv) => if Trim(kv.0) == "error" && Trim(kv.1) != "0" then Some(Trim(kv.1)) else None
  }

  /** The warnings of the report's lines: one per reporting `error` line, in
      order, naming the device of the latest marker line before it. */
  function WarningsOfLines(lines: seq<string>): seq<Warning>
    decreases |lines|
  {
    if |lines| == 0 then []
    else
      var init := lines[..|lines| - 1];
      WarningsOfLines(init) +
        match ReportedError(lines[|lines| - 1])
        case Some(code) => [Warning(LastMarkerId(init), code)]
        case None => []
  }

  /** A line warns exactly when it reports an error, with that code. */
  lemma ReportedErrorAgrees(parseNum: NumParser, l: string)
    ensures Classify(parseNum, l).Warn? <==> ReportedError(l).Some?
    ensures Classify(parseNum, l).Warn? ==> Classify(parseNum, l).code == ReportedError(l).value
  {
    if IsMarker(l) {
      assert ReportedError(l) == None;
    } else if '=' !in Trim(l) {
      UnformattedLineIgnored(parseNum, l);
      assert ReportedError(l) == None;
    } else {
      var kv := Cut(Trim(l), '=').value;
      KeyValueSplit(parseNum, l, kv.0, kv.1);
      KeyActionWarns(parseNum, Trim(kv.0), Trim(kv.1));
    }
  }

  /** The key table warns for the `error` key alone, with its value. */
  lemma KeyActionWarns(parseNum: NumParser, key: string, value: string)
    ensures KeyAction(parseNum, key, value).Warn? <==> key == "error" && value != "0"
    ensures KeyAction(parseNum, key, value).Warn? ==> KeyAction(parseNum, key, value).code == value
  {
    assert KindOf(key).ErrorKey? <==> key == "error";
  }

  /** Over a report without a bad marker, the warnings of the actions are
      the warnings of the lines. */
  lemma {:induction false} WarningsOfLinesAgree(parseNum: NumParser, lines: seq<string>)
    requires forall i :: 0 <= i < |lines| ==> !Actions(parseNum, lines)[i].BadMarker?
    ensures WarningsOf(Actions(parseNum, lines)) == WarningsOfLines(lines)
    decreases |lines|
  {
    if |lines| > 0 {
      var n := |lines| - 1;
      var acts := Actions(parseNum, lines);
      ActionsPrefix(parseNum, lines, n);
      assert acts[..n] == Actions(parseNum, lines[..n]);
      forall i | 0 <= i < n
        ensures !Actions(parseNum, lines[..n])[i].BadMarker?
      {
        assert Actions(parseNum, lines[..n])[i] == acts[i];
      }
      WarningsOfLinesAgree(parseNum, lines[..n]);
      LastIdIsLastMarkerId(parseNum, lines[..n]);
      ReportedErrorAgrees(parseNum, lines[n]);
    }
  }

  /** After a run without a panic, `currentID` holds the latest marker's
      ID, and the logged warnings are those of the `error` lines whose value
      is not "0", each naming the device of the latest marker line before it
      ("" before any marker), in line order. */
  lemma CurrentIdIsLatestMarker(name: string, parseNum: NumParser, lines: seq<string>)
    requires Parse(name, parseNum, lines).Success?
    ensures Parse(name, parseNum, lines).value.currentId == LastMarkerId(lines)
    ensures Parse(name, parseNum, lines).value.warnings == WarningsOfLines(lines)
  {
    var acts := Actions(parseNum, lines);
    RunPanicsAtFirstOffence(name, acts);
    forall i | 0 <= i < |lines|
      ensures !acts[i].BadMarker?
    {
      assert !Offends(acts, i);
    }
    LastIdIsLastMarkerId(parseNum, lines);
    RunWarnings(name, acts);
    WarningsOfLinesAgree(parseNum, lines);
  }

  /** Line `i` panics if the loop reaches it: a marker line with no '/'
      after trimming, or a line that touches the current record while no
      marker line came before it. */
  predicate LineOffends(parseNum: NumParser, lines: seq<string>, i: nat)
    requires i < |lines|
  {
    || (IsMarker(lines[i]) && '/' !in Trim(lines[i]))
    || (Classify(parseNum, lines[i]).NeedsRecord() && forall j :: 0 <= j < i ==> !IsMarker(lines[j]))
  }

  /** Before the first offending action, a line offends exactly when its
      action does. */
  lemma LineOffendsAgrees(parseNum: NumParser, lines: seq<string>, i: nat)
    requires i < |lines|
    requires forall j :: 0 <= j < i ==> !Offends(Actions(parseNum, lines), j)
    ensures LineOffends(parseNum, lines, i) <==> Offends(Actions(parseNum, lines), i)
  {
    var acts := Actions(parseNum, lines);
    forall j | 0 <= j < i
      ensures acts[j].Open? <==> IsMarker(lines[j])
    {
      assert !Offends(acts, j);
    }
  }

  /** The parse panics exactly when some line offends, and it reports the
      first offending line. */
  lemma ParsePanics(name: string, parseNum: NumParser, lines: seq<string>)
    ensures Parse(name, parseNum, lines).Failure? <==>
      exists i :: 0 <= i < |lines| && LineOffends(parseNum, lines, i)
    ensures Parse(name, parseNum, lines).Failure? ==>
      var i := Parse(name, parseNum, lines).error.line;
      && i < |lines| && LineOffends(parseNum, lines, i)
      && (forall j :: 0 <= j < i ==> !LineOffends(parseNum, lines, j))
  {
    var acts := Actions(parseNum, lines);
    RunPanicsAtFirstOffence(name, acts);
    if Run(name, acts).Failure? {
      var i0 := Run(name, acts).error.line;
      LineOffendsAgrees(parseNum, lines, i0);
      forall j | 0 <= j < i0
        ensures !LineOffends(parseNum, lines, j)
      {
        LineOffendsAgrees(parseNum, lines, j);
      }
    } else {
      forall i | 0 <= i < |lines|
        ensures !LineOffends(parseNum, lines, i)
      {
        LineOffendsAgrees(parseNum, lines, i);
      }
    }
  }

  // ---- Single lines ----

  /** A blank line, or one without `=`, is skipped. */
  lemma UnformattedLineIgnored(parseNum: NumParser, l: string)
    requires !IsMarker(l)
    requires Trim(l) == [] || '=' !in Trim(l)
    ensures Classify(parseNum, l) == Ignore
  {
  }

  /** A `key = value` line is split at its first `=`, both sides trimmed. */
  lemma KeyValueSplit(parseNum: NumParser, l: string, key: string, value: string)
    requires !IsMarker(l)
    requires Trim(l) == key + "=" + value && '=' !in key
    ensures Classify(parseNum, l) == KeyAction(parseNum, Trim(key), Trim(value))
  {
    CutJoin(key, '=', value);
  }

  /** The usual shape of a report line, `key = value`, is handled by the
      key table with the key and the value as written. */
  lemma SpacedKeyValue(parseNum: NumParser, key: string, value: string)
    requires key != [] && !IsSpace(key[0]) && !IsSpace(key[|key| - 1]) && '=' !in key
    requires value != [] && !IsSpace(value[0]) && !IsSpace(value[|value| - 1])
    requires !IsMarker(key + " = " + value)
    ensures Classify(parseNum, key + " = " + value) == KeyAction(parseNum, key, value)
  {
    var l := key + " = " + value;
    assert l[0] == key[0] && l[|l| - 1] == value[|value| - 1];
    TrimOfTrimmed(l);
    TrimmedKeyValue(parseNum, l, key, value);
  }

  /** A line that trims to `key = value` goes to the key table. */
  lemma TrimmedKeyValue(parseNum: NumParser, l: string, key: string, value: string)
    requires key != [] && !IsSpace(key[0]) && !IsSpace(key[|key| - 1]) && '=' !in key
    requires value != [] && !IsSpace(value[0]) && !IsSpace(value[|value| - 1])
    requires !IsMarker(l) && Trim(l) == key + " = " + value
    ensures Classify(parseNum, l) == KeyAction(parseNum, key, value)
  {
    SpacedPair(key, value);
    KeyValueSplit(parseNum, l, key + " ", " " + value);
  }

  /** `key = value` cut at its `=`, with both halves trimmed back. */
  lemma SpacedPair(key: string, value: string)
    requires key != [] && !IsSpace(key[0]) && !IsSpace(key[|key| - 1]) && '=' !in key
    requires value != [] && !IsSpace(value[0]) && !IsSpace(value[|value| - 1])
    ensures key + " = " + value == (key + " ") + "=" + (" " + value)
    ensures '=' !in key + " "
    ensures Trim(key + " ") == key && Trim(" " + value) == value
  {
    TrimPadded(key);
    TrimPadded(value);
    forall k | 0 <= k < |key| + 1 ensures (key + " ")[k] != '=' {
      if k < |key| { assert (key + " ")[k] == key[k]; }
    }
  }

  /** The marker test looks at the raw line, so an `id = value` line that is
      not indented is taken for a marker: the `id` case of the key table is
      reached only by indented lines or by `id=value`, and without a `/` the
      line ends the parse with the marker panic. */
  lemma UnindentedIdIsMarker(parseNum: NumParser, value: string)
    ensures IsMarker("id = " + value)
    ensures '/' !in value ==> Classify(parseNum, "id = " + value) == BadMarker
  {
    var l := "id = " + value;
    assert l[..3] == "id ";
    if '/' !in value {
      assert '/' !in l by {
        forall k | 0 <= k < |l| ensures l[k] != '/' {
          if k >= 5 {
            assert l[k] == value[k - 5];
          }
        }
      }
      var t := Trim(l);
      assert forall k :: 0 <= k < |t| ==> t[k] == l[Lead(l) + k];
    }
  }

  /** An indented `id = value` line tags the current record. */
  lemma IndentedIdTags(parseNum: NumParser, value: string)
    requires value != [] && !IsSpace(value[0]) && !IsSpace(value[|value| - 1])
    ensures Classify(parseNum, " id = " + value) == AddTag(Tag("id", value))
  {
    IndentedIdLine(value);
    TrimmedKeyValue(parseNum, " id = " + value, "id", value);
    TagKeyAddsTag(parseNum, "id", value);
  }

  /** An unindented `id=value` line, with no space after `id`, is not a
      marker: it tags the current record. */
  lemma UnspacedIdTags(parseNum: NumParser, value: string)
    requires value != [] && !IsSpace(value[0]) && !IsSpace(value[|value| - 1])
    ensures Classify(parseNum, "id=" + value) == AddTag(Tag("id", value))
  {
    assert "id" + "=" + value == "id=" + value;
    UnspacedKeyValue(parseNum, "id", value);
    TagKeyAddsTag(parseNum, "id", value);
  }

  /** A `key=value` line with no padding reaches the key table as written. */
  lemma UnspacedKeyValue(parseNum: NumParser, key: string, value: string)
    requires key != [] && !IsSpace(key[0]) && !IsSpace(key[|key| - 1]) && '=' !in key
    requires value != [] && !IsSpace(value[0]) && !IsSpace(value[|value| - 1])
    requires |key| < 3 || key[..3] != "id "
    ensures Classify(parseNum, key + "=" + value) == KeyAction(parseNum, key, value)
  {
    var l := key + "=" + value;
    assert l[0] == key[0] && l[|l| - 1] == value[|value| - 1];
    if |key| >= 3 {
      assert l[..3] == key[..3];
    } else {
      assert l[|key|] == '=';
    }
    TrimOfTrimmed(l);
    TrimOfTrimmed(key);
    TrimOfTrimmed(value);
    KeyValueSplit(parseNum, l, key, value);
  }

  lemma IndentedIdLine(value: string)
    requires value != [] && !IsSpace(value[0]) && !IsSpace(value[|value| - 1])
    ensures !IsMarker(" id = " + value)
    ensures Trim(" id = " + value) == "id" + " = " + value
  {
    var t := "id = " + value;
    assert t[0] == 'i' && t[|t| - 1] == value[|value| - 1];
    IndentedLine(t);
    assert " id = " + value == " " + t;
  }

  /** A line indented by one space is no marker, and trims to its text. */
  lemma IndentedLine(t: string)
    requires t != [] && !IsSpace(t[0]) && !IsSpace(t[|t| - 1])
    ensures !IsMarker(" " + t)
    ensures Trim(" " + t) == t
  {
    TrimPadded(t);
    var l := " " + t;
    if |l| >= 3 {
      assert l[..3][0] == ' ';
    }
  }

  /** A key the `switch` does not list is ignored, whatever its value. */
  lemma UnknownKeyIgnored(parseNum: NumParser, key: string, value: string)
    requires key !in {"id", "addr", "s/n", "name", "version", "online", "running", "humid%",
                      "target%", "temp", "fan", "tank", "filter", "sleep", "error"}
    ensures KeyAction(parseNum, key, value) == Ignore
  {
  }

  /** An `error` line never touches a record; it warns exactly when its
      value is not "0", and the warning quotes the value. */
  lemma ErrorKeyWarns(parseNum: NumParser, value: string)
    ensures KeyAction(parseNum, "error", value) == (if value != "0" then Warn(value) else Ignore)
  {
  }

  /** A recognised tag key appends the mapped tag, value verbatim. */
  lemma TagKeyAddsTag(parseNum: NumParser, key: string, value: string)
    requires key in {"id", "addr", "s/n", "name", "version"}
    ensures KeyAction(parseNum, key, value) == AddTag(Tag(if key == "s/n" then "sn" else key, value))
  {
  }

  /** `temp` adds both `temp_c` and its Fahrenheit twin, or nothing. */
  lemma TempAddsBothOrNeither(parseNum: NumParser, value: string)
    ensures parseNum(value).Some? ==>
      KeyAction(parseNum, "temp", value) ==
        AddFields([Field("temp_c", N(parseNum(value).value)), Field("temp_f", N(CtoF(parseNum(value).value)))])
    ensures parseNum(value).None? ==> KeyAction(parseNum, "temp", value) == Ignore
  {
  }

  /** A boolean key adds its renamed field exactly when the value converts:
      `tank` becomes `tank_full`, `filter` becomes `filter_needs_cleaning`,
      the others keep their name. */
  lemma BoolKeyConverts(parseNum: NumParser, key: string, value: string)
    requires key in {"online", "running", "tank", "filter", "sleep"}
    ensures var name := if key == "tank" then "tank_full"
                        else if key == "filter" then "filter_needs_cleaning"
                        else key;
      && (EqualFold(value, "true") ==> KeyAction(parseNum, key, value) == AddFields([Field(name, B(true))]))
      && (EqualFold(value, "false") ==> KeyAction(parseNum, key, value) == AddFields([Field(name, B(false))]))
      && (!EqualFold(value, "true") && !EqualFold(value, "false") ==> KeyAction(parseNum, key, value) == Ignore)
  {
  }

  /** A numeric key adds its renamed field when the value parses and is
      ignored when it does not: `humid%` becomes `humidity_pct`, `target%`
      becomes `target_humidity_pct`, `fan` keeps its name. */
  lemma NumKeyConverts(parseNum: NumParser, key: string, value: string)
    requires key in {"humid%", "target%", "fan"}
    ensures var name := if key == "humid%" then "humidity_pct"
                        else if key == "target%" then "target_humidity_pct"
                        else "fan";
      && (parseNum(value).Some? ==> KeyAction(parseNum, key, value) == AddFields([Field(name, N(parseNum(value).value))]))
      && (parseNum(value).None? ==> KeyAction(parseNum, key, value) == Ignore)
  {
  }
}

=== FILE: pipeline.dfy ===
/**
 * The run of main.go after the configuration is loaded: parse the
 * discovery output, filter, stop with the "no devices" status or deliver
 * to the configured sinks with bounded retry, then send the heartbeat. The
 * sinks' answers are inputs; what the run does is a list of events and a
 * final status.
 */
module Pipeline {
  import opened Wrappers
  import opened Conv
  import opened Configuration
  import opened Parser
  import ParserFacts
  import opened Filter
  import opened Mqtt

  const InfluxAttempts := 3
  const MqttAttempts := 3

  /** The outcome of `retry.Do`: the number of calls it took to succeed, or
      the error of every call once the attempts are used up. */
  datatype Retried = Succeeded(tries: nat) | Exhausted(errors: seq<string>)

  /** `retry.Do` with a fixed number of attempts, where call k returns
      `results[k]` (`None` for success). Delays are not modelled. */
  function Retry(attempts: nat, results: seq<Option<string>>): (r: Retried)
    requires attempts <= |results|
    ensures r.Succeeded? <==> exists k :: 0 <= k < attempts && results[k].None?
    ensures r.Succeeded? ==>
      && 1 <= r.tries <= attempts && results[r.tries - 1].None?
      && forall k :: 0 <= k < r.tries - 1 ==> results[k].Some?
    ensures r.Exhausted? ==>
      && |r.errors| == attempts
      && forall k :: 0 <= k < attempts ==> results[k].Some? && r.errors[k] == results[k].value
    decreases attempts
  {
    if attempts == 0 then Exhausted([])
    else
      match Retry(attempts - 1, results)
      case Succeeded(t) => Succeeded(t)
      case Exhausted(es) =>
        if results[attempts - 1].None? then Succeeded(attempts)
        else Exhausted(es + [results[attempts - 1].value])
  }

  /** The number of calls `retry.Do` made. */
  function Tries(r: Retried): nat {
    match r
    case Succeeded(t) => t
    case Exhausted(es) => |es|
  }

  /** An observable action of the run. */
  datatype Event =
    | InfluxWrite(points: seq<Record>)  // one `WritePoint` call with all points
    | MqttPublish(msg: Message)         // one `Publish` call
    | HeartbeatGet(url: string)         // the heartbeat request

  /** How the run ends. */
  datatype Status =
    | Completed
    | NoDevicesFound
    | InfluxFailed(errors: seq<string>)
    | MqttFailed(errors: seq<string>)
    | Crashed(panic: Panic)

  /** The process exit status: `log.Fatalf` exits with 1, a Go runtime
      panic with 2. */
  function ExitCode(s: Status): int {
    match s
    case Completed => 0
    case NoDevicesFound => NoDevicesExitCode
    case InfluxFailed(_) => 1
    case MqttFailed(_) => 1
    case Crashed(_) => 2
  }

  datatype RunResult = RunResult(events: seq<Event>, status: Status)

  /** The sinks' answers: `influx(k)` to the k-th write, `mqtt(k, j)` to
      the j-th publish of the k-th attempt (`None` for success). */
  datatype Answers = Answers(influx: nat -> Option<string>, mqtt: (nat, nat) -> Option<string>)

  /** The answers of the first `n` calls of one kind. */
  function Calls(n: nat, answer: nat -> Option<string>): (rs: seq<Option<string>>)
    ensures |rs| == n && forall k :: 0 <= k < n ==> rs[k] == answer(k)
  {
    seq(n, k requires 0 <= k => answer(k))
  }

  /** The broker's answers to the publishes of MQTT attempt `k`. */
  function Round(ans: Answers, k: nat, n: nat): (acks: seq<Option<string>>)
    ensures |acks| == n && forall j :: 0 <= j < n ==> acks[j] == ans.mqtt(k, j)
  {
    Calls(n, (j: nat) => ans.mqtt(k, j))
  }

  function Repeat(e: Event, n: nat): (es: seq<Event>)
    ensures |es| == n && forall k :: 0 <= k < n ==> es[k] == e
  {
    if n == 0 then [] else Repeat(e, n - 1) + [e]
  }

  /** The publishes of one MQTT attempt. */
  function Publishes(sent: seq<Message>): (es: seq<Event>)
    ensures |es| == |sent| && forall j :: 0 <= j < |sent| ==> es[j] == MqttPublish(sent[j])
  {
    seq(|sent|, j requires 0 <= j < |sent| => MqttPublish(sent[j]))
  }

  /** The publishes of the first `n` MQTT attempts. */
  function PublishEvents(msgs: seq<Message>, ans: Answers, n: nat): seq<Event>
    decreases n
  {
    if n == 0 then []
    else PublishEvents(msgs, ans, n - 1) + Publishes(PublishAll(msgs, Round(ans, n - 1, |msgs|)).sent)
  }

  /** The heartbeat request, made only when a URL is configured. */
  function Heartbeat(c: Config): seq<Event> {
    if c.heartbeatUrl != "" then [HeartbeatGet(c.heartbeatUrl)] else []
  }

  /** The time-series sink: up to three `WritePoint` calls with all points. */
  function InfluxStage(ans: Answers): Retried {
    Retry(InfluxAttempts, Calls(InfluxAttempts, ans.influx))
  }

  /** The outcome of each MQTT attempt: every message is sent from the
      first until a publish fails. */
  function MqttOutcomes(msgs: seq<Message>, ans: Answers): (rs: seq<Option<string>>)
    ensures |rs| == MqttAttempts
    ensures forall k :: 0 <= k < MqttAttempts ==> rs[k] == PublishAll(msgs, Round(ans, k, |msgs|)).err
  {
    Calls(MqttAttempts, (k: nat) => PublishAll(msgs, Round(ans, k, |msgs|)).err)
  }

  /** The MQTT sink: up to three attempts. */
  function MqttStage(msgs: seq<Message>, ans: Answers): Retried {
    Retry(MqttAttempts, MqttOutcomes(msgs, ans))
  }

  /** The time-series stage as run: no call at all when it is not configured. */
  function InfluxOutcome(c: Config, ans: Answers): Retried {
    if InfluxConfigured(c) then InfluxStage(ans) else Succeeded(0)
  }

  /** The MQTT stage as run: no call at all when it is not configured. */
  function MqttOutcome(c: Config, msgs: seq<Message>, ans: Answers): Retried {
    if MqttConfigured(c) then MqttStage(msgs, ans) else Succeeded(0)
  }

  /** Delivery of the filtered points, in the order main.go runs it. A sink
      that exhausts its attempts ends the run on the spot (`log.Fatalf`):
      nothing after it is attempted, not even another sink. */
  function Deliver(c: Config, formatNum: NumFormatter, points: seq<Record>, ans: Answers): (r: RunResult)
    ensures r.status.Completed? || r.status.InfluxFailed? || r.status.MqttFailed?
    ensures r.status.InfluxFailed? <==> InfluxConfigured(c) && InfluxStage(ans).Exhausted?
    ensures r.status.InfluxFailed? ==>
      // three writes, then exit status 1: no publish and no heartbeat
      && r.events == Repeat(InfluxWrite(points), InfluxAttempts)
      && ExitCode(r.status) == 1
    ensures r.status.MqttFailed? <==>
      && !r.status.InfluxFailed? && MqttConfigured(c)
      && MqttStage(Messages(c.mqttTopic, formatNum, points), ans).Exhausted?
  {
    var influx := InfluxOutcome(c, ans);
    var influxEvents := Repeat(InfluxWrite(points), Tries(influx));
    if influx.Exhausted? then RunResult(influxEvents, InfluxFailed(influx.errors))
    else
      var msgs := Messages(c.mqttTopic, formatNum, points);
      var mqtt := MqttOutcome(c, msgs, ans);
      var mqttEvents := PublishEvents(msgs, ans, Tries(mqtt));
      if mqtt.Exhausted? then RunResult(influxEvents + mqttEvents, MqttFailed(mqtt.errors))
      else RunResult(influxEvents + mqttEvents + Heartbeat(c), Completed)
  }

  lemma {:induction false} PublishEventsArePublishes(msgs: seq<Message>, ans: Answers, n: nat)
    ensures forall e :: e in PublishEvents(msgs, ans, n) ==> e.MqttPublish?
    decreases n
  {
    if n > 0 {
      PublishEventsArePublishes(msgs, ans, n - 1);
      var es := Publishes(PublishAll(msgs, Round(ans, n - 1, |msgs|)).sent);
      assert forall e :: e in es ==> e.MqttPublish?;
    }
  }

  /** The last attempt's publishes close the list of MQTT events. */
  lemma LastAttemptPublished(msgs: seq<Message>, ans: Answers, n: nat, m: Message)
    requires n >= 1 && PublishAll(msgs, Round(ans, n - 1, |msgs|)).err.None?
    requires m in msgs
    ensures MqttPublish(m) in PublishEvents(msgs, ans, n)
  {
    var sent := PublishAll(msgs, Round(ans, n - 1, |msgs|)).sent;
    var j :| 0 <= j < |msgs| && msgs[j] == m;
    assert Publishes(sent)[j] == MqttPublish(m);
  }

  /** The events of a delivery: the writes, then (unless the writes
      failed) the publishes, then (on completion) the heartbeat. */
  lemma DeliverEvents(c: Config, formatNum: NumFormatter, points: seq<Record>, ans: Answers)
    ensures var r := Deliver(c, formatNum, points, ans);
      var msgs := Messages(c.mqttTopic, formatNum, points);
      r.events == Repeat(InfluxWrite(points), Tries(InfluxOutcome(c, ans)))
        + (if InfluxOutcome(c, ans).Exhausted? then [] else PublishEvents(msgs, ans, Tries(MqttOutcome(c, msgs, ans))))
        + (if r.status.Completed? then Heartbeat(c) else [])
  {
    var msgs := Messages(c.mqttTopic, formatNum, points);
    if InfluxOutcome(c, ans).Exhausted? {
      InfluxFailureEvents(c, formatNum, points, ans);
    } else if MqttOutcome(c, msgs, ans).Exhausted? {
      MqttFailureEvents(c, formatNum, points, ans);
    } else {
      CompletedEvents(c, formatNum, points, ans);
    }
  }

  lemma CompletedEvents(c: Config, formatNum: NumFormatter, points: seq<Record>, ans: Answers)
    requires !InfluxOutcome(c, ans).Exhausted?
    requires !MqttOutcome(c, Messages(c.mqttTopic, formatNum, points), ans).Exhausted?
    ensures var r := Deliver(c, formatNum, points, ans);
      var msgs := Messages(c.mqttTopic, formatNum, points);
      && r.status.Completed?
      && r.events == Repeat(InfluxWrite(points), Tries(InfluxOutcome(c, ans)))
        + PublishEvents(msgs, ans, Tries(MqttOutcome(c, msgs, ans))) + Heartbeat(c)
  {
  }

  lemma InfluxFailureEvents(c: Config, formatNum: NumFormatter, points: seq<Record>, ans: Answers)
    requires InfluxOutcome(c, ans).Exhausted?
    ensures var r := Deliver(c, formatNum, points, ans);
      && r.status.InfluxFailed?
      && r.events == Repeat(InfluxWrite(points), Tries(InfluxOutcome(c, ans)))
  {
  }

  lemma MqttFailureEvents(c: Config, formatNum: NumFormatter, points: seq<Record>, ans: Answers)
    requires !InfluxOutcome(c, ans).Exhausted?
    requires MqttOutcome(c, Messages(c.mqttTopic, formatNum, points), ans).Exhausted?
    ensures var r := Deliver(c, formatNum, points, ans);
      var msgs := Messages(c.mqttTopic, formatNum, points);
      && r.status.MqttFailed?
      && r.events == Repeat(InfluxWrite(points), Tries(InfluxOutcome(c, ans)))
        + PublishEvents(msgs, ans, Tries(MqttOutcome(c, msgs, ans)))
  {
  }

  /** A sink that is not configured is never called. */
  lemma UnconfiguredSinkSilent(c: Config, formatNum: NumFormatter, points: seq<Record>, ans: Answers)
    ensures var r := Deliver(c, formatNum, points, ans);
      && (!InfluxConfigured(c) ==> forall e :: e in r.events ==> !e.InfluxWrite?)
      && (!MqttConfigured(c) ==> forall e :: e in r.events ==> !e.MqttPublish?)
  {
    var r := Deliver(c, formatNum, points, ans);
    var msgs := Messages(c.mqttTopic, formatNum, points);
    var influx := InfluxOutcome(c, ans);
    var mqtt := MqttOutcome(c, msgs, ans);
    var writes := Repeat(InfluxWrite(points), Tries(influx));
    var publishes := if influx.Exhausted? then [] else PublishEvents(msgs, ans, Tries(mqtt));
    var beat := if r.status.Completed? then Heartbeat(c) else [];
    DeliverEvents(c, formatNum, points, ans);
    PublishEventsArePublishes(msgs, ans, Tries(mqtt));
    assert r.events == writes + publishes + beat;
    if !InfluxConfigured(c) {
      forall e | e in r.events ensures !e.InfluxWrite? {
        assert e in publishes || e in beat;
      }
    }
    if !MqttConfigured(c) {
      assert publishes == [];
      forall e | e in r.events ensures !e.MqttPublish? {
        assert e in writes || e in beat;
      }
    }
  }

  /** The heartbeat is sent if and only if both sinks succeeded and a
      heartbeat URL is configured. */
  lemma HeartbeatOnlyOnCompletion(c: Config, formatNum: NumFormatter, points: seq<Record>, ans: Answers)
    ensures var r := Deliver(c, formatNum, points, ans);
      (exists e :: e in r.events && e.HeartbeatGet?) <==> r.status.Completed? && c.heartbeatUrl != ""
  {
    var r := Deliver(c, formatNum, points, ans);
    if r.status.Completed? && c.heartbeatUrl != "" {
      DeliverEvents(c, formatNum, points, ans);
      assert r.events[|r.events| - 1] == HeartbeatGet(c.heartbeatUrl);
    } else {
      NoHeartbeat(c, formatNum, points, ans);
    }
  }

  /** Without completion or without a URL, no heartbeat is sent. */
  lemma NoHeartbeat(c: Config, formatNum: NumFormatter, points: seq<Record>, ans: Answers)
    requires !Deliver(c, formatNum, points, ans).status.Completed? || c.heartbeatUrl == ""
    ensures forall e :: e in Deliver(c, formatNum, points, ans).events ==> !e.HeartbeatGet?
  {
    var r := Deliver(c, formatNum, points, ans);
    var msgs := Messages(c.mqttTopic, formatNum, points);
    var influx := InfluxOutcome(c, ans);
    var mqtt := MqttOutcome(c, msgs, ans);
    var writes := Repeat(InfluxWrite(points), Tries(influx));
    var publishes := if influx.Exhausted? then [] else PublishEvents(msgs, ans, Tries(mqtt));
    DeliverEvents(c, formatNum, points, ans);
    PublishEventsArePublishes(msgs, ans, Tries(mqtt));
    assert r.events == writes + publishes;
    NoBeatBetween(writes, publishes);
  }

  /** Writes followed by publishes hold no heartbeat. */
  lemma NoBeatBetween(writes: seq<Event>, publishes: seq<Event>)
    requires forall e :: e in writes ==> e.InfluxWrite?
    requires forall e :: e in publishes ==> e.MqttPublish?
    ensures forall e :: e in writes + publishes ==> !e.HeartbeatGet?
  {
    forall e | e in writes + publishes ensures !e.HeartbeatGet? {
      assert e in writes || e in publishes;
    }
  }

  /** A completed run has written the points to a configured time-series
      sink and published every message to a configured broker. */
  lemma CompletedRunDelivered(c: Config, formatNum: NumFormatter, points: seq<Record>, ans: Answers)
    requires Deliver(c, formatNum, points, ans).status.Completed?
    ensures var r := Deliver(c, formatNum, points, ans);
      && (InfluxConfigured(c) ==> InfluxWrite(points) in r.events)
      && (MqttConfigured(c) ==>
            forall m :: m in Messages(c.mqttTopic, formatNum, points) ==> MqttPublish(m) in r.events)
  {
    var r := Deliver(c, formatNum, points, ans);
    var msgs := Messages(c.mqttTopic, formatNum, points);
    var influx := InfluxOutcome(c, ans);
    var mqtt := MqttOutcome(c, msgs, ans);
    var writes := Repeat(InfluxWrite(points), Tries(influx));
    var publishes := PublishEvents(msgs, ans, Tries(mqtt));
    DeliverEvents(c, formatNum, points, ans);
    assert r.events == writes + publishes + Heartbeat(c);
    if InfluxConfigured(c) {
      assert writes[0] == InfluxWrite(points);
    }
    if MqttConfigured(c) {
      StagePublishesAll(msgs, ans);
      forall m | m in msgs ensures MqttPublish(m) in r.events {
        assert MqttPublish(m) in publishes;
      }
    }
  }

  /** An MQTT stage that succeeds has published every message in its last
      attempt. */
  lemma StagePublishesAll(msgs: seq<Message>, ans: Answers)
    requires MqttStage(msgs, ans).Succeeded?
    ensures forall m :: m in msgs ==> MqttPublish(m) in PublishEvents(msgs, ans, Tries(MqttStage(msgs, ans)))
  {
    var t := Tries(MqttStage(msgs, ans));
    assert MqttOutcomes(msgs, ans)[t - 1].None?;
    forall m | m in msgs ensures MqttPublish(m) in PublishEvents(msgs, ans, t) {
      LastAttemptPublished(msgs, ans, t, m);
    }
  }

  /** When every call succeeds, each configured sink is called once per
      point or message, and the heartbeat follows. */
  lemma AllAccepted(c: Config, formatNum: NumFormatter, points: seq<Record>, ans: Answers)
    requires forall k :: ans.influx(k).None?
    requires forall k, j :: ans.mqtt(k, j).None?
    ensures Deliver(c, formatNum, points, ans) == RunResult(
      (if InfluxConfigured(c) then [InfluxWrite(points)] else [])
        + (if MqttConfigured(c) then Publishes(Messages(c.mqttTopic, formatNum, points)) else [])
        + Heartbeat(c),
      Completed)
  {
    var msgs := Messages(c.mqttTopic, formatNum, points);
    InfluxFirstTry(ans);
    MqttFirstTry(msgs, ans);
    var influx := InfluxOutcome(c, ans);
    var mqtt := MqttOutcome(c, msgs, ans);
    assert Repeat(InfluxWrite(points), Tries(influx)) == if InfluxConfigured(c) then [InfluxWrite(points)] else [];
    assert PublishEvents(msgs, ans, Tries(mqtt)) == if MqttConfigured(c) then Publishes(msgs) else [];
  }

  lemma InfluxFirstTry(ans: Answers)
    requires ans.influx(0).None?
    ensures InfluxStage(ans) == Succeeded(1)
  {
    assert Calls(InfluxAttempts, ans.influx)[0].None?;
  }

  lemma MqttFirstTry(msgs: seq<Message>, ans: Answers)
    requires forall j :: ans.mqtt(0, j).None?
    ensures MqttStage(msgs, ans) == Succeeded(1)
    ensures PublishEvents(msgs, ans, 1) == Publishes(msgs)
  {
    var acks := Round(ans, 0, |msgs|);
    assert forall k :: 0 <= k < |msgs| ==> acks[k].None?;
    var first := PublishAll(msgs, acks);
    assert first.err.None? && first.sent == msgs;
    assert MqttOutcomes(msgs, ans)[0].None?;
    assert PublishEvents(msgs, ans, 0) == [];
  }

  /** No record passes the filter. */
  predicate NoneSurvive(rs: seq<Record>) {
    forall i :: 0 <= i < |rs| ==> !Survives(rs[i])
  }

  /** The whole run on the discovery output `out` of a loaded configuration. */
  function Run(c: Config, parseNum: NumParser, formatNum: NumFormatter, out: string, ans: Answers): (r: RunResult)
    ensures r.status.Crashed? <==> ParseReport(c.measurementName, parseNum, out).Failure?
    ensures r.status.Crashed? || r.status.NoDevicesFound? ==> r.events == []
    ensures r.status.NoDevicesFound? <==>
      && ParseReport(c.measurementName, parseNum, out).Success?
      && NoneSurvive(ParseReport(c.measurementName, parseNum, out).value.records)
  {
    match ParseReport(c.measurementName, parseNum, out)
    case Failure(p) => RunResult([], Crashed(p))
    case Success(st) =>
      ParserFacts.ParsedRecordsWellTyped(c.measurementName, parseNum, Text.Split(out, '\n'));
      assert AllWellTyped(st.records) by {
        forall i | 0 <= i < |st.records| ensures WellTyped(st.records[i]) {
          assert st.records[i] in st.records;
        }
      }
      match Decide(st.records)
      case NoDevices(_) => RunResult([], NoDevicesFound)
      case Report(points) => Deliver(c, formatNum, points, ans)
  }

  /** When the report parses and some record survives the filter, the run
      delivers exactly the surviving points, in report order. */
  lemma RunDeliversSurvivors(c: Config, parseNum: NumParser, formatNum: NumFormatter, out: string, ans: Answers)
    requires ParseReport(c.measurementName, parseNum, out).Success?
    requires !NoneSurvive(ParseReport(c.measurementName, parseNum, out).value.records)
    ensures var rs := ParseReport(c.measurementName, parseNum, out).value.records;
      && AllWellTyped(rs)
      && |FilterRecords(rs)| > 0
      && Run(c, parseNum, formatNum, out, ans) == Deliver(c, formatNum, FilterRecords(rs), ans)
  {
    var rs := ParseReport(c.measurementName, parseNum, out).value.records;
    ParserFacts.ParsedRecordsWellTyped(c.measurementName, parseNum, Text.Split(out, '\n'));
    assert AllWellTyped(rs) by {
      forall i | 0 <= i < |rs| ensures WellTyped(rs[i]) {
        assert rs[i] in rs;
      }
    }
  }
}

=== FILE: points.dfy ===
/**
 * What `write.Point.AddTag` and `AddField` mean for a point, stated as
 * lookups by key: after an update the key reads the new value and every
 * other key reads what it read before, and a point never holds the same
 * key twice.
 */
module Points {
  import opened Wrappers
  import opened Parser

  /** The value a point reports for a tag key. */
  function TagValue(tags: seq<Tag>, key: string): Option<string> {
    var i := IndexOf(TagKeys(tags), key);
    if i < |tags| then Some(tags[i].value) else None
  }

  /** The value a point reports for a field key. */
  function FieldValue(fields: seq<Field>, key: string): Option<Value> {
    var i := IndexOf(FieldKeys(fields), key);
    if i < |fields| then Some(fields[i].value) else None
  }

  /** No key occurs twice. */
  predicate Distinct(keys: seq<string>) {
    forall i, j :: 0 <= i < j < |keys| ==> keys[i] != keys[j]
  }

  /** `IndexOf` is the first position holding the key. */
  lemma IndexOfIs(keys: seq<string>, k: string, i: nat)
    requires i <= |keys|
    requires forall j :: 0 <= j < i ==> keys[j] != k
    requires i < |keys| ==> keys[i] == k
    ensures IndexOf(keys, k) == i
  {
  }

  lemma SetTagLookup(tags: seq<Tag>, t: Tag, key: string)
    ensures TagValue(SetTag(tags, t), key) == if key == t.key then Some(t.value) else TagValue(tags, key)
  {
    var ks := TagKeys(tags);
    var i := IndexOf(ks, t.key);
    var r := SetTag(tags, t);
    var m := IndexOf(ks, key);
    if i == |tags| {
      assert TagKeys(r) == ks + [t.key];
      if key == t.key {
        IndexOfIs(TagKeys(r), key, |tags|);
      } else {
        IndexOfIs(TagKeys(r), key, if m < |tags| then m else |r|);
      }
    } else {
      assert TagKeys(r) == ks;
    }
  }

  lemma SetFieldLookup(fields: seq<Field>, f: Field, key: string)
    ensures FieldValue(SetField(fields, f), key) == if key == f.key then Some(f.value) else FieldValue(fields, key)
  {
    var ks := FieldKeys(fields);
    var i := IndexOf(ks, f.key);
    var r := SetField(fields, f);
    var m := IndexOf(ks, key);
    if i == |fields| {
      assert FieldKeys(r) == ks + [f.key];
      if key == f.key {
        IndexOfIs(FieldKeys(r), key, |fields|);
      } else {
        IndexOfIs(FieldKeys(r), key, if m < |fields| then m else |r|);
      }
    } else {
      assert FieldKeys(r) == ks;
    }
  }

  /** An update keeps the keys distinct: a known key is replaced in place,
      a new one appended. */
  lemma SetTagDistinct(tags: seq<Tag>, t: Tag)
    requires Distinct(TagKeys(tags))
    ensures Distinct(TagKeys(SetTag(tags, t)))
    ensures |SetTag(tags, t)| == if t.key in TagKeys(tags) then |tags| else |tags| + 1
  {
    var ks := TagKeys(tags);
    var i := IndexOf(ks, t.key);
    if i == |tags| {
      assert TagKeys(SetTag(tags, t)) == ks + [t.key];
    } else {
      assert TagKeys(SetTag(tags, t)) == ks;
    }
  }

  lemma SetFieldDistinct(fields: seq<Field>, f: Field)
    requires Distinct(FieldKeys(fields))
    ensures Distinct(FieldKeys(SetField(fields, f)))
    ensures |SetField(fields, f)| == if f.key in FieldKeys(fields) then |fields| else |fields| + 1
  {
    var ks := FieldKeys(fields);
    var i := IndexOf(ks, f.key);
    if i == |fields| {
      assert FieldKeys(SetField(fields, f)) == ks + [f.key];
    } else {
      assert FieldKeys(SetField(fields, f)) == ks;
    }
  }

  lemma {:induction false} SetFieldsDistinct(fields: seq<Field>, fs: seq<Field>)
    requires Distinct(FieldKeys(fields))
    ensures Distinct(FieldKeys(SetFields(fields, fs)))
    decreases |fs|
  {
    if |fs| > 0 {
      SetFieldDistinct(fields, fs[0]);
      SetFieldsDistinct(SetField(fields, fs[0]), fs[1..]);
    }
  }

  /** Every field of the result is an old one or one of the new ones. */
  lemma SetFieldFrom(fields: seq<Field>, f: Field)
    ensures forall k :: 0 <= k < |SetField(fields, f)| ==>
      SetField(fields, f)[k] == f || SetField(fields, f)[k] in fields
  {
  }

  lemma {:induction false} SetFieldsFrom(fields: seq<Field>, fs: seq<Field>)
    ensures forall k :: 0 <= k < |SetFields(fields, fs)| ==>
      SetFields(fields, fs)[k] in fields || SetFields(fields, fs)[k] in fs
    decreases |fs|
  {
    if |fs| > 0 {
      var mid := SetField(fields, fs[0]);
      SetFieldFrom(fields, fs[0]);
      SetFieldsFrom(mid, fs[1..]);
      forall k | 0 <= k < |SetFields(fields, fs)|
        ensures SetFields(fields, fs)[k] in fields || SetFields(fields, fs)[k] in fs
      {
        var x := SetFields(fields, fs)[k];
        if x in mid {
          var m :| 0 <= m < |mid| && mid[m] == x;
          assert x == fs[0] || x in fields;
        } else {
          assert x in fs[1..];
        }
      }
    }
  }

  /** Updating well-typed fields with well-typed fields keeps them well typed. */
  lemma SetFieldsWellTyped(fields: seq<Field>, fs: seq<Field>)
    requires forall i :: 0 <= i < |fields| ==> FieldWellTyped(fields[i])
    requires forall i :: 0 <= i < |fs| ==> FieldWellTyped(fs[i])
    ensures forall i :: 0 <= i < |SetFields(fields, fs)| ==> FieldWellTyped(SetFields(fields, fs)[i])
  {
    var r := SetFields(fields, fs);
    SetFieldsFrom(fields, fs);
    forall i | 0 <= i < |r| ensures FieldWellTyped(r[i]) {
      if r[i] in fields {
        var j :| 0 <= j < |fields| && fields[j] == r[i];
      } else {
        var j :| 0 <= j < |fs| && fs[j] == r[i];
      }
    }
  }

  /** A tag under a new key is appended. */
  lemma SetTagAppends(tags: seq<Tag>, t: Tag)
    requires t.key !in TagKeys(tags)
    ensures SetTag(tags, t) == tags + [t]
  {
  }

  /** Fields whose keys are all new, and distinct among themselves, are
      appended in order. */
  lemma {:induction false} SetFieldsAppend(fields: seq<Field>, fs: seq<Field>)
    requires Distinct(FieldKeys(fields + fs))
    ensures SetFields(fields, fs) == fields + fs
    decreases |fs|
  {
    if |fs| > 0 {
      var ks := FieldKeys(fields);
      var all := FieldKeys(fields + fs);
      assert all[|fields|] == fs[0].key;
      forall j | 0 <= j < |ks| ensures ks[j] != fs[0].key {
        assert all[j] == ks[j];
      }
      assert SetField(fields, fs[0]) == fields + [fs[0]];
      assert (fields + [fs[0]]) + fs[1..] == fields + fs;
      SetFieldsAppend(fields + [fs[0]], fs[1..]);
    }
  }

  /** The value the last field with the key carries, if any. */
  function LastValue(fs: seq<Field>, key: string): Option<Value>
    decreases |fs|
  {
    if |fs| == 0 then None
    else
      var rest := LastValue(fs[1..], key);
      if rest.Some? then rest else if fs[0].key == key then Some(fs[0].value) else None
  }

  /** After adding several fields, a key reads the value of the last of
      them with that key, or what it read before when none has it. */
  lemma {:induction false} SetFieldsLookup(fields: seq<Field>, fs: seq<Field>, key: string)
    ensures FieldValue(SetFields(fields, fs), key) ==
      if LastValue(fs, key).Some? then LastValue(fs, key) else FieldValue(fields, key)
    decreases |fs|
  {
    if |fs| > 0 {
      SetFieldLookup(fields, fs[0], key);
      SetFieldsLookup(SetField(fields, fs[0]), fs[1..], key);
    }
  }
}

=== FILE: scenarios.dfy ===
/**
 * A two-device discovery report worked end to end through the model: one
 * device is online and warm, the other is offline and at 0 °C.
 */
module Scenarios {
  import opened Wrappers
  import opened Text
  import opened Parser
  import opened ParserFacts
  import opened Conv
  import opened Filter
  import opened Mqtt
  import Configuration
  import Pipeline
  import Points

  /** A number parser that reads the numerals of the sample as
      `strconv.ParseFloat` does. */
  predicate ReadsSample(parseNum: NumParser) {
    && parseNum("20") == Some(20.0)
    && parseNum("40") == Some(40.0)
    && parseNum("0") == Some(0.0)
  }

  /** The shape of a line of the sample: a marker `id <index>/<device>`,
      or `key = value`. */
  datatype LineShape = MarkerShape(index: string, device: string) | PairShape(key: string, value: string)

  function LineText(l: LineShape): string {
    match l
    case MarkerShape(index, device) => "id " + index + "/" + device
    case PairShape(key, value) => key + " = " + value
  }

  /** A shape whose line the parser reads as intended: the device or the
      key and value carry no padding of their own and no separator. */
  predicate Plain(l: LineShape) {
    match l
    case MarkerShape(index, device) =>
      && '/' !in index && '/' !in device && device != [] && !IsSpace(device[|device| - 1])
      && '\n' !in index && '\n' !in device
    case PairShape(key, value) =>
      && key != [] && !IsSpace(key[0]) && !IsSpace(key[|key| - 1]) && '=' !in key && key[0] != 'i'
      && value != [] && !IsSpace(value[0]) && !IsSpace(value[|value| - 1])
      && '\n' !in key && '\n' !in value
  }

  const SampleShapes: seq<LineShape> := [
    MarkerShape("0", "DEV1"),
    PairShape("addr", "1.2.3.4"),
    PairShape("online", "true"),
    PairShape("temp", "20"),
    PairShape("humid%", "40"),
    PairShape("error", "0"),
    MarkerShape("0", "DEV2"),
    PairShape("addr", "1.2.3.5"),
    PairShape("online", "false"),
    PairShape("temp", "0")
  ]

  /** The sample report, line by line. */
  const SampleLines: seq<string> := seq(|SampleShapes|, i requires 0 <= i < |SampleShapes| => LineText(SampleShapes[i]))

  /** The action of each line of the sample. */
  const SampleActs: seq<Action> := [
    Open("DEV1"), AddTag(Tag("addr", "1.2.3.4")), AddFields([Field("online", B(true))]),
    AddFields([Field("temp_c", N(20.0)), Field("temp_f", N(68.0))]),
    AddFields([Field("humidity_pct", N(40.0))]), Ignore,
    Open("DEV2"), AddTag(Tag("addr", "1.2.3.5")), AddFields([Field("online", B(false))]),
    AddFields([Field("temp_c", N(0.0)), Field("temp_f", N(32.0))])
  ]

  const Dev1 := Record("midea_dehumidifier", [Tag("addr", "1.2.3.4")],
    [Field("online", B(true)), Field("temp_c", N(20.0)), Field("temp_f", N(68.0)), Field("humidity_pct", N(40.0))])

  const Dev2 := Record("midea_dehumidifier", [Tag("addr", "1.2.3.5")],
    [Field("online", B(false)), Field("temp_c", N(0.0)), Field("temp_f", N(32.0))])

  /** A line starting with anything but `i` is not a marker. */
  lemma NotMarker(l: string)
    requires l != [] && l[0] != 'i'
    ensures !IsMarker(l)
  {
    if |l| >= 3 {
      assert l[..3][0] == l[0];
    }
  }

  /** A `key = value` line of the sample goes through the key table. */
  lemma KeyValueLine(parseNum: NumParser, key: string, value: string)
    requires key != [] && !IsSpace(key[0]) && !IsSpace(key[|key| - 1]) && '=' !in key && key[0] != 'i'
    requires value != [] && !IsSpace(value[0]) && !IsSpace(value[|value| - 1])
    ensures Classify(parseNum, key + " = " + value) == KeyAction(parseNum, key, value)
  {
    NotMarker(key + " = " + value);
    SpacedKeyValue(parseNum, key, value);
  }

  /** A marker line `id <index>/<device>` opens the device's record. */
  lemma MarkerLine(parseNum: NumParser, index: string, device: string)
    requires '/' !in index && '/' !in device
    requires device != [] && !IsSpace(device[|device| - 1])
    ensures Classify(parseNum, "id " + index + "/" + device) == Open(device)
  {
    var l := "id " + index + "/" + device;
    MarkerText(index, device);
    assert l == Join(["id " + index, device], '/');
    SplitJoin(["id " + index, device], '/');
  }

  /** The marker line is a marker, is its own trim, and its text before the
      `/` holds no other `/`. */
  lemma MarkerText(index: string, device: string)
    requires '/' !in index
    requires device != [] && !IsSpace(device[|device| - 1])
    ensures IsMarker("id " + index + "/" + device)
    ensures Trim("id " + index + "/" + device) == "id " + index + "/" + device
    ensures '/' !in "id " + index
  {
    var l := "id " + index + "/" + device;
    assert l[..3] == "id ";
    assert l[0] == 'i' && l[|l| - 1] == device[|device| - 1];
    TrimOfTrimmed(l);
    forall k | 0 <= k < 3 + |index| ensures ("id " + index)[k] != '/' {
      if k >= 3 {
        assert ("id " + index)[k] == index[k - 3];
      }
    }
  }

  /** What a line of the given shape is meant to do. */
  function Intended(parseNum: NumParser, l: LineShape): Action {
    match l
    case MarkerShape(_, device) => Open(device)
    case PairShape(key, value) => KeyAction(parseNum, key, value)
  }

  /** A plain line is a marker opening its device's record, or a pair
      handled by the key table. */
  lemma PlainLine(parseNum: NumParser, l: LineShape)
    requires Plain(l)
    ensures Classify(parseNum, LineText(l)) == Intended(parseNum, l)
  {
    match l
    case MarkerShape(index, device) => MarkerLine(parseNum, index, device);
    case PairShape(key, value) => KeyValueLine(parseNum, key, value);
  }

  /** What the sample's lines are meant to do. */
  lemma SampleIntended(parseNum: NumParser)
    requires ReadsSample(parseNum)
    ensures forall i :: 0 <= i < |SampleShapes| ==> Intended(parseNum, SampleShapes[i]) == SampleActs[i]
  {
    MarkersIntended(parseNum);
    AddressesIntended(parseNum);
    FlagsIntended(parseNum);
    ReadingsIntended(parseNum);
  }

  lemma MarkersIntended(parseNum: NumParser)
    ensures Intended(parseNum, SampleShapes[0]) == SampleActs[0]
    ensures Intended(parseNum, SampleShapes[6]) == SampleActs[6]
  {
  }

  lemma AddressesIntended(parseNum: NumParser)
    ensures Intended(parseNum, SampleShapes[1]) == SampleActs[1]
    ensures Intended(parseNum, SampleShapes[7]) == SampleActs[7]
  {
  }

  lemma FlagsIntended(parseNum: NumParser)
    ensures Intended(parseNum, SampleShapes[2]) == SampleActs[2]
    ensures Intended(parseNum, SampleShapes[8]) == SampleActs[8]
    ensures Intended(parseNum, SampleShapes[5]) == SampleActs[5]
  {
    assert EqualFold("true", "true") && EqualFold("false", "false");
  }

  lemma ReadingsIntended(parseNum: NumParser)
    requires ReadsSample(parseNum)
    ensures Intended(parseNum, SampleShapes[3]) == SampleActs[3]
    ensures Intended(parseNum, SampleShapes[4]) == SampleActs[4]
    ensures Intended(parseNum, SampleShapes[9]) == SampleActs[9]
  {
  }

  /** Every line of the sample is plain. */
  lemma SamplePlain()
    ensures forall i :: 0 <= i < |SampleShapes| ==> Plain(SampleShapes[i])
  {
    MarkersPlain();
    AddressesPlain();
    FlagsPlain();
    ReadingsPlain();
  }

  lemma MarkersPlain()
    ensures Plain(SampleShapes[0]) && Plain(SampleShapes[6])
  {
  }

  lemma AddressesPlain()
    ensures Plain(SampleShapes[1]) && Plain(SampleShapes[7])
  {
  }

  lemma FlagsPlain()
    ensures Plain(SampleShapes[2]) && Plain(SampleShapes[8]) && Plain(SampleShapes[5])
  {
  }

  lemma ReadingsPlain()
    ensures Plain(SampleShapes[3]) && Plain(SampleShapes[4]) && Plain(SampleShapes[9])
  {
  }

  /** The action of each line of the sample. */
  lemma SampleActions(parseNum: NumParser)
    requires ReadsSample(parseNum)
    ensures Actions(parseNum, SampleLines) == SampleActs
  {
    SamplePlain();
    SampleIntended(parseNum);
    forall i | 0 <= i < |SampleLines| ensures Classify(parseNum, SampleLines[i]) == SampleActs[i] {
      PlainLine(parseNum, SampleShapes[i]);
    }
  }

  /** One more action of the loop. */
  lemma RunSnoc(name: string, acts: seq<Action>, k: nat)
    requires k < |acts| && Run(name, acts[..k]).Success?
    ensures Run(name, acts[..k + 1]) == Apply(name, Run(name, acts[..k]).value, acts[k], k)
  {
    assert acts[..k + 1][..k] == acts[..k];
  }

  /** An action under new keys appends to the record. */
  lemma AppendsNew(rec: Record, a: Action, last: Record)
    requires a.AddTag? || a.AddFields?
    requires a.AddTag? ==> a.tag.key !in TagKeys(rec.tags)
    requires a.AddFields? ==> Points.Distinct(FieldKeys(rec.fields + a.fields))
    requires last == if a.AddTag? then rec.(tags := rec.tags + [a.tag]) else rec.(fields := rec.fields + a.fields)
    ensures last == if a.AddTag? then rec.(tags := SetTag(rec.tags, a.tag)) else rec.(fields := SetFields(rec.fields, a.fields))
  {
    if a.AddTag? {
      Points.SetTagAppends(rec.tags, a.tag);
    } else {
      Points.SetFieldsAppend(rec.fields, a.fields);
    }
  }

  /** An action that edits the last record, on a state of one or two
      records. */
  lemma EditLast(name: string, st: State, a: Action, k: nat, last: Record)
    requires a.AddTag? || a.AddFields?
    requires 1 <= |st.records| <= 2
    requires last == if a.AddTag? then st.records[|st.records| - 1].(tags := SetTag(st.records[|st.records| - 1].tags, a.tag))
                     else st.records[|st.records| - 1].(fields := SetFields(st.records[|st.records| - 1].fields, a.fields))
    ensures Apply(name, st, a, k) ==
      Success(st.(records := if |st.records| == 1 then [last] else [st.records[0], last]))
  {
    var r := Apply(name, st, a, k).value.records;
    assert r == st.records[..|st.records| - 1] + [last];
    assert |st.records| == 2 ==> st.records[..1] + [last] == [st.records[0], last];
  }

  const Blank := Record("midea_dehumidifier", [], [])

  /** The parser's state after each prefix of the sample. */
  const SampleTrace: seq<State> := [
    Initial,
    State([Blank], [], "DEV1"),
    State([Blank.(tags := Dev1.tags)], [], "DEV1"),
    State([Dev1.(fields := Dev1.fields[..1])], [], "DEV1"),
    State([Dev1.(fields := Dev1.fields[..3])], [], "DEV1"),
    State([Dev1], [], "DEV1"),
    State([Dev1], [], "DEV1"),
    State([Dev1, Blank], [], "DEV2"),
    State([Dev1, Blank.(tags := Dev2.tags)], [], "DEV2"),
    State([Dev1, Dev2.(fields := Dev2.fields[..1])], [], "DEV2"),
    State([Dev1, Dev2], [], "DEV2")
  ]

  /** Each line of the first device moves the trace one state on. */
  lemma FirstDeviceSteps(k: nat)
    requires k < 6
    ensures Apply("midea_dehumidifier", SampleTrace[k], SampleActs[k], k) == Success(SampleTrace[k + 1])
  {
    if k == 0 {
      assert Initial.records + [Blank] == [Blank];
    } else if k == 5 {
    } else {
      AppendsNew(SampleTrace[k].records[0], SampleActs[k], SampleTrace[k + 1].records[0]);
      EditLast("midea_dehumidifier", SampleTrace[k], SampleActs[k], k, SampleTrace[k + 1].records[0]);
    }
  }

  /** Each line of the second device moves the trace one state on. */
  lemma SecondDeviceSteps(k: nat)
    requires 6 <= k < 10
    ensures Apply("midea_dehumidifier", SampleTrace[k], SampleActs[k], k) == Success(SampleTrace[k + 1])
  {
    if k == 6 {
      assert [Dev1] + [Blank] == [Dev1, Blank];
    } else {
      AppendsNew(SampleTrace[k].records[1], SampleActs[k], SampleTrace[k + 1].records[1]);
      EditLast("midea_dehumidifier", SampleTrace[k], SampleActs[k], k, SampleTrace[k + 1].records[1]);
    }
  }

  /** The parse loop follows the trace. */
  lemma {:induction false} SampleFollowsTrace(k: nat)
    requires k <= |SampleActs|
    ensures Run("midea_dehumidifier", SampleActs[..k]) == Success(SampleTrace[k])
  {
    if k == 0 {
      assert SampleActs[..0] == [];
    } else {
      SampleFollowsTrace(k - 1);
      RunSnoc("midea_dehumidifier", SampleActs, k - 1);
      if k - 1 < 6 {
        FirstDeviceSteps(k - 1);
      } else {
        SecondDeviceSteps(k - 1);
      }
    }
  }

  /** The parse loop over the whole sample. */
  lemma SampleRun()
    ensures Run("midea_dehumidifier", SampleActs) == Success(State([Dev1, Dev2], [], "DEV2"))
  {
    SampleFollowsTrace(|SampleActs|);
    assert SampleActs[..|SampleActs|] == SampleActs;
  }

  /** The sample parses into two records and reports no warning. */
  lemma SampleParses(parseNum: NumParser)
    requires ReadsSample(parseNum)
    ensures Parse("midea_dehumidifier", parseNum, SampleLines) == Success(State([Dev1, Dev2], [], "DEV2"))
  {
    SampleActions(parseNum);
    SampleRun();
  }

  /** Only the first device survives the filter: the second fails both the
      `online` and the `temp_c` rule. */
  lemma SampleFilters()
    ensures Disqualifies(Dev2.fields[0]) && Disqualifies(Dev2.fields[1])
    ensures Decide([Dev1, Dev2]) == Report([Dev1])
  {
    assert Survives(Dev1);
    assert Disqualifies(Dev2.fields[0]);
    assert FilterRecords([Dev1, Dev2]) == [Dev1] by {
      FilterAppend([Dev1], [Dev2]);
      FilterSingle(Dev1);
      FilterSingle(Dev2);
    }
  }

  /** The surviving device has no `id` tag, so its topics carry an empty
      device segment. */
  lemma SampleTopics(formatNum: NumFormatter)
    ensures |Messages("home/midea", formatNum, [Dev1])| == 4
    ensures Messages("home/midea", formatNum, [Dev1])[3].topic == "home/midea//humidity_pct"
  {
  }

  /** A plain line is a single line of the report. */
  lemma PlainLineHasNoBreak(l: LineShape)
    requires Plain(l)
    ensures '\n' !in LineText(l)
  {
  }

  /** Splitting the printed report on line feeds gives its lines back. */
  lemma SampleReportLines(out: string)
    requires out == Join(SampleLines, '\n')
    ensures Split(out, '\n') == SampleLines
  {
    SamplePlain();
    forall i | 0 <= i < |SampleLines| ensures '\n' !in SampleLines[i] {
      PlainLineHasNoBreak(SampleShapes[i]);
    }
    SplitJoin(SampleLines, '\n');
  }

  /** End to end: the run on the sample report, its lines joined by line
      feeds as the discovery tool prints them, delivers exactly the first
      device. */
  lemma SampleEndToEnd(c: Configuration.Config, parseNum: NumParser, formatNum: NumFormatter, out: string, ans: Pipeline.Answers)
    requires ReadsSample(parseNum) && c.measurementName == "midea_dehumidifier"
    requires out == Join(SampleLines, '\n')
    ensures Pipeline.Run(c, parseNum, formatNum, out, ans) == Pipeline.Deliver(c, formatNum, [Dev1], ans)
  {
    SampleReportLines(out);
    SampleParses(parseNum);
    SampleFilters();
  }

  /** With both sinks configured, a heartbeat URL and every call accepted,
      the run on the sample writes one point, publishes the first device's
      four fields, sends the heartbeat and exits with status 0. */
  lemma SampleDelivered(c: Configuration.Config, parseNum: NumParser, formatNum: NumFormatter, out: string, ans: Pipeline.Answers)
    requires ReadsSample(parseNum) && c.measurementName == "midea_dehumidifier"
    requires out == Join(SampleLines, '\n')
    requires Configuration.InfluxConfigured(c) && Configuration.MqttConfigured(c) && c.heartbeatUrl != ""
    requires forall k :: ans.influx(k).None?
    requires forall k, j :: ans.mqtt(k, j).None?
    ensures var r := Pipeline.Run(c, parseNum, formatNum, out, ans);
      && r.status == Pipeline.Completed && Pipeline.ExitCode(r.status) == 0
      && r.events == [Pipeline.InfluxWrite([Dev1])]
           + Pipeline.Publishes(Messages(c.mqttTopic, formatNum, [Dev1]))
           + [Pipeline.HeartbeatGet(c.heartbeatUrl)]
      && |r.events| == 6
  {
    SampleEndToEnd(c, parseNum, formatNum, out, ans);
    Pipeline.AllAccepted(c, formatNum, [Dev1], ans);
    assert |Messages(c.mqttTopic, formatNum, [Dev1])| == 4;
  }

  /** A device tagged `id = abc123` with one humidity reading is published
      once, to the reading's topic under the device. */
  lemma SinglePublish(formatNum: NumFormatter)
    ensures Messages("home/midea", formatNum,
        [Record("midea_dehumidifier", [Tag("id", "abc123")], [Field("humidity_pct", N(55.2))])])
      == [Message("home/midea/abc123/humidity_pct", formatNum(55.2))]
  {
    var r := Record("midea_dehumidifier", [Tag("id", "abc123")], [Field("humidity_pct", N(55.2))]);
    assert DeviceId(r.tags) == "abc123";
    assert [r][..0] == [];
    assert TotalFields([r]) == 1;
    MessageAt("home/midea", formatNum, [r], 0, 0);
    assert Topic("home/midea", "abc123", "humidity_pct") == "home/midea/abc123/humidity_pct";
  }
}

=== FILE: text.dfy ===
/**
 * The handful of Go `strings` operations the program relies on, over
 * `string` = `seq<char>`: `TrimSpace`, `HasPrefix`, `Split` on a one-rune
 * separator, `SplitN(s, sep, 2)` and `ToLower` (ASCII letters only).
 */
module Text {
  import opened Wrappers

  /** White space as Go's `unicode.IsSpace` defines it. */
  predicate IsSpace(c: char) {
    || c == ' ' || c == '\t' || c == '\n' || c == '\r'
    || c == '\U{0B}' || c == '\U{0C}' || c == '\U{85}' || c == '\U{A0}'
    || c == '\U{1680}' || ('\U{2000}' <= c <= '\U{200A}')
    || c == '\U{2028}' || c == '\U{2029}' || c == '\U{202F}'
    || c == '\U{205F}' || c == '\U{3000}'
  }

  /** Drops leading white space: the result is a suffix of `s`. */
  function TrimLeft(s: string): (r: string)
    ensures |r| <= |s| && r == s[|s| - |r|..]
    ensures forall i :: 0 <= i < |s| - |r| ==> IsSpace(s[i])
    ensures r == [] || !IsSpace(r[0])
  {
    if |s| > 0 && IsSpace(s[0]) then TrimLeft(s[1..]) else s
  }

  /** Drops trailing white space: the result is a prefix of `s`. */
  function TrimRight(s: string): (r: string)
    ensures |r| <= |s| && r == s[..|r|]
    ensures forall i :: |r| <= i < |s| ==> IsSpace(s[i])
    ensures r == [] || !IsSpace(r[|r| - 1])
  {
    if |s| > 0 && IsSpace(s[|s| - 1]) then TrimRight(s[..|s| - 1]) else s
  }

  /** How many white-space characters `TrimSpace` removes from the front. */
  function Lead(s: string): (n: nat)
    ensures n <= |s|
  {
    |s| - |TrimLeft(s)|
  }

  /** Go's `strings.TrimSpace`: the infix of `s` left once the white space
      on both ends is removed; it neither starts nor ends with white space. */
  function Trim(s: string): (r: string)
    ensures Lead(s) + |r| <= |s| && r == s[Lead(s)..Lead(s) + |r|]
    ensures forall k :: 0 <= k < Lead(s) ==> IsSpace(s[k])
    ensures forall k :: Lead(s) + |r| <= k < |s| ==> IsSpace(s[k])
    ensures r == [] || (!IsSpace(r[0]) && !IsSpace(r[|r| - 1]))
  {
    var l := TrimLeft(s);
    var r := TrimRight(l);
    assert r != [] ==> r[0] == l[0];
    r
  }

  /** A string already free of surrounding white space is its own trim. */
  lemma {:induction false} TrimOfTrimmed(s: string)
    requires s == [] || (!IsSpace(s[0]) && !IsSpace(s[|s| - 1]))
    ensures Trim(s) == s
  {
  }

  /** Trimming twice is trimming once. */
  lemma TrimIdempotent(s: string)
    ensures Trim(Trim(s)) == Trim(s)
  {
    TrimOfTrimmed(Trim(s));
  }

  /** One space of padding on either side is trimmed away. */
  lemma TrimPadded(s: string)
    requires s != [] && !IsSpace(s[0]) && !IsSpace(s[|s| - 1])
    ensures Trim(s + " ") == s
    ensures Trim(" " + s) == s
  {
    assert (s + " ")[..|s|] == s;
    assert (" " + s)[1..] == s;
  }

  /** Go's `strings.HasPrefix`. */
  predicate HasPrefix(s: string, p: string) {
    |p| <= |s| && s[..|p|] == p
  }

  /** The position of the first `c` in `s`. */
  function FirstIndex(s: string, c: char): (i: nat)
    requires c in s
    ensures i < |s| && s[i] == c && c !in s[..i]
  {
    if s[0] == c then 0 else FirstIndex(s[1..], c) + 1
  }

  /** Go's `strings.Split(s, string(c))`: the pieces between the separators. */
  function Split(s: string, c: char): (parts: seq<string>)
    ensures |parts| >= 1
    ensures forall k :: 0 <= k < |parts| ==> c !in parts[k]
    ensures |parts| >= 2 <==> c in s
    ensures Join(parts, c) == s
    decreases |s|
  {
    if c in s then
      var i := FirstIndex(s, c);
      assert s == s[..i] + [c] + s[i + 1..];
      [s[..i]] + Split(s[i + 1..], c)
    else
      [s]
  }

  /** Go's `strings.Join(parts, string(c))`, the inverse of `Split`. */
  function Join(parts: seq<string>, c: char): string
    requires |parts| >= 1
  {
    if |parts| == 1 then parts[0] else parts[0] + [c] + Join(parts[1..], c)
  }

  /** Splitting a join of separator-free pieces gives the pieces back. */
  lemma {:induction false} SplitJoin(parts: seq<string>, c: char)
    requires |parts| >= 1
    requires forall k :: 0 <= k < |parts| ==> c !in parts[k]
    ensures Split(Join(parts, c), c) == parts
    decreases |parts|
  {
    if |parts| > 1 {
      var s := Join(parts, c);
      var rest := Join(parts[1..], c);
      assert s == parts[0] + [c] + rest;
      assert s[|parts[0]|] == c;
      assert s[..|parts[0]|] == parts[0];
      assert c in s;
      var i := FirstIndex(s, c);
      assert i == |parts[0]|;
      assert s[i + 1..] == rest;
      SplitJoin(parts[1..], c);
    } else {
      assert c !in parts[0];
    }
  }

  /** `Split` peels off the text before the first separator as its first piece. */
  lemma SplitHead(a: string, c: char, b: string)
    requires c !in a
    ensures Split(a + [c] + b, c) == [a] + Split(b, c)
  {
    var s := a + [c] + b;
    assert s[|a|] == c;
    var i := FirstIndex(s, c);
    assert s[..|a|] == a;
    assert i == |a|;
    assert s[..i] == a && s[i + 1..] == b;
  }

  /** The first piece of `Split` is the text up to the first separator (or
      the end). */
  lemma SplitFirst(mid: string, c: char, rest: string)
    requires c !in mid
    requires rest == [] || rest[0] == c
    ensures Split(mid + rest, c)[0] == mid
  {
    if rest == [] {
      assert mid + rest == mid;
    } else {
      assert mid + rest == mid + [c] + rest[1..];
      SplitHead(mid, c, rest[1..]);
    }
  }

  /** The second piece of `Split` is the text between the first and the
      second separator (or the end). */
  lemma SplitSecond(head: string, c: char, mid: string, rest: string)
    requires c !in head && c !in mid
    requires rest == [] || rest[0] == c
    ensures |Split(head + [c] + mid + rest, c)| >= 2
    ensures Split(head + [c] + mid + rest, c)[1] == mid
  {
    var s, t := head + [c] + mid + rest, mid + rest;
    assert s == head + [c] + t;
    SplitHead(head, c, t);
    SplitFirst(mid, c, rest);
    assert Split(s, c) == [head] + Split(t, c);
  }

  /** Go's `strings.SplitN(s, string(c), 2)` when it finds `c`: the text
      before the first `c` and everything after it. */
  function Cut(s: string, c: char): (r: Option<(string, string)>)
    ensures r.None? <==> c !in s
    ensures r.Some? ==> c !in r.value.0 && r.value.0 + [c] + r.value.1 == s
  {
    if c in s then
      var i := FirstIndex(s, c);
      assert s == s[..i] + [c] + s[i + 1..];
      Some((s[..i], s[i + 1..]))
    else
      None
  }

  /** `Cut` finds the first separator: a string built as `a`, `c`, `b` with
      no `c` in `a` is cut back into `a` and `b`. */
  lemma CutJoin(a: string, c: char, b: string)
    requires c !in a
    ensures Cut(a + [c] + b, c) == Some((a, b))
  {
    var s := a + [c] + b;
    assert s[|a|] == c;
    var i := FirstIndex(s, c);
    assert s[..|a|] == a;
    assert i == |a|;
    assert s[..i] == a && s[i + 1..] == b;
  }

  /** `unicode.ToLower` restricted to ASCII letters. */
  function Lower(c: char): (d: char)
    ensures 'A' <= c <= 'Z' ==> d as int == c as int + 32
    ensures !('A' <= c <= 'Z') ==> d == c
  {
    if 'A' <= c <= 'Z' then (c as int + 32) as char else c
  }

  /** Go's `strings.ToLower` on ASCII text. */
  function ToLower(s: string): (r: string)
    ensures |r| == |s|
    ensures forall i :: 0 <= i < |s| ==> r[i] == Lower(s[i])
  {
    seq(|s|, i requires 0 <= i < |s| => Lower(s[i]))
  }

  /** `a` and `b` agree letter for letter once ASCII case is ignored: the
      equality `ConvBool` tests after `ToLower`. Go's `strings.EqualFold`
      also folds some non-ASCII letters; the program does not call it. */
  predicate EqualFold(a: string, b: string) {
    |a| == |b| && forall i :: 0 <= i < |a| ==> Lower(a[i]) == Lower(b[i])
  }
}

=== FILE: wrappers.dfy ===
/** Failure-carrying wrappers shared by the whole model. */
module Wrappers {

  /** A value that may be absent (a Go `nil` error, a failed conversion). */
  datatype Option<+T> = None | Some(value: T)

  /** Either a successful value or the reason it could not be produced. */
  datatype Result<+R, +E> = Success(value: R) | Failure(error: E)
}
